=== FILE: README.md ===
# In-memory left-leaning red-black tree (go-rb), modelled in Dafny

This project models the in-memory LLRB of go-rb, a Go package that follows
Sedgewick's left-leaning red-black trees. `src/redblack/memory.go` provides
the `memoryLLRB` tree and its `memoryNode`s:

- `Search`, `Insert`, `DeleteMin` and `Size`;
- the private recursive `insert` and `deleteMin`;
- the rebalancing primitives `rotateLeft`, `rotateRight`, `FlipColors`,
  `moveRedLeft`, `moveRedRight` and `fixUp`.

`src/redblack/memory_test.go` adds the invariant checks its tests run:

- black root, the same number of black nodes on every root-to-leaf path,
  no red node with a red child, and a depth bound;
- the node and path walkers these checks rely on;
- the insert-then-search scenarios.

A tree is its root node, written as an immutable `RedBlack.Tree<V>`: `Nil`
for a nil pointer, or a `Node` holding the colour, children, key and value
of the `memoryNode` record (`memory.go:9-14`). Each Go method
that rewires nodes in place becomes a pure function that returns the new
subtree. The go-rb tree never shares a node between two places, so the two
readings agree. Keys are `int`, values have a generic type `V`, and the
colour is a `bool` with `RED == true`, as in `redblack.go`.

The modules are:

- `RedBlack`: the node record and what a tree stands for. This covers its
  in-order entries, its key set, its key-to-value map and the
  binary-search-tree ordering.
- `Invariants`: the red-black invariants.
  - Black height is measured to the nil terminals.
  - No red node has a red child.
  - Red links lean left.
  - The root is black.
- `Memory`: the operations of `memory.go`.
- `MemoryProperties`: contents results for insert and delete-minimum.
  - Rotation and flip round trips.
  - A five-key tree on which `deleteMin` breaks the left-leaning rule.
- `InsertBalance`: why top-down insertion keeps every invariant.
- `MemoryTest`: the checks of `memory_test.go` and how they relate to the
  invariants.
- `MemoryScenarios`: the test scenarios, replayed as methods.
- `GoCount`: the node count of `Size` as Go evaluates it, nil links included.
- `GoDeleteMin`: `deleteMin` and `DeleteMin` as Go runs them on any tree,
  with nil dereferences as failures, and a sequence of public calls that
  loses a key.

Insertion is the top-down variant of Sedgewick's 2008 paper, which
`doc.go:2-3` cites: it splits 4-nodes on the way down and so leaves
4-nodes (a black node with two red children) in the tree. `deleteMin`
(`memory.go:226-236`) is the delete-minimum that the same paper gives
for 2-3 trees. On such a 4-node, `moveRedLeft` rotates the right child
into a node whose only red link leans right, off the path the descent and
its fix-ups visit. `MemoryProperties.DeleteMinCanBreakLeftLean` proves
this on the five-key tree that ascending inserts build. The model
therefore claims only key-set, map and ordering results for `DeleteMin`,
and only on red-black trees. Trees outside that domain are reachable:
after such a `DeleteMin`, later inserts can leave a red node with no left
child but a red right child. `deleteMin` returns nil at that node and so
drops its right child too. `GoDeleteMin.DeleteMinLosesKeyReachable`
exhibits this through public calls only (see Findings).

## Model

| member | source | states |
|---|---|---|
| RedBlack.IsRed | src/redblack/memory.go:26-31 | a nil link is never red; a node is red exactly when its colour is `RED` |
| RedBlack.OrderedIffSorted | src/redblack/memory.go:158-165 | a tree is ordered by the key comparison insert uses exactly when its in-order entries have strictly increasing keys |
| RedBlack.LookupLeft | src/redblack/memory.go:91-92 | in an ordered tree a key smaller than the node's is present, with the same value, exactly when it is present in the left subtree |
| RedBlack.LookupRight | src/redblack/memory.go:93-94 | in an ordered tree a key larger than the node's is present, with the same value, exactly when it is present in the right subtree |
| RedBlack.LookupHere | src/redblack/memory.go:89-90 | in an ordered tree the node's own key maps to the node's value |
| Memory.FlipColors | src/redblack/memory.go:47-51 | the node and both children get the opposite colour; the four grandchild subtrees are the same, and shape, keys and values stay as they were |
| Memory.SetColor | src/redblack/memory.go:57-59 | the root takes the given colour; both subtrees are the same and its key and value are kept |
| Memory.RotateLeft | src/redblack/memory.go:175-182 | the old right child becomes the top with the old top's colour; the old top, with its key, value and left subtree and the right child's old left subtree, becomes its red left child; the right child's right subtree stays its right; entries and node count are unchanged |
| Memory.RotateRight | src/redblack/memory.go:184-191 | the old left child becomes the top with the old top's colour; the old top, with its key, value and right subtree and the left child's old right subtree, becomes its red right child; the left child's left subtree stays its left; entries and node count are unchanged |
| Memory.FixUp | src/redblack/memory.go:216-224 | the two fix-up rotations keep the in-order entries |
| Memory.SplitFourNode | src/redblack/memory.go:155-157 | the flip on the way down keeps the shape, the entries and both subtree sizes |
| Memory.Search | src/redblack/memory.go:83-98 | any value found is stored under the key; on an ordered tree the result is the key's value, or none when the key is absent |
| Memory.Size | src/redblack/memory.go:115-124 | the node count equals the number of in-order entries |
| Memory.InsertAt | src/redblack/memory.go:150-173 | recursive insert always returns a node; its contents are stated by `MemoryProperties.InsertAtContents` and its colours by `InsertBalance.InsertAtShape` |
| Memory.Insert | src/redblack/memory.go:100-103 | the new root exists and is black; contents and invariants are stated by `MemoryProperties.InsertContents` and `InsertBalance.InsertKeepsInvariant` |
| Memory.MoveRedLeft | src/redblack/memory.go:197-205 | the left child exists afterwards and the in-order entries are unchanged |
| Memory.MoveRedRight | src/redblack/memory.go:207-214 | the right child exists afterwards and the in-order entries are unchanged |
| Memory.NoLeftNoRight | src/redblack/memory.go:228-230 | a balanced left-leaning node without a left child has no right child either, so returning nil there drops exactly one node |
| Memory.MoveRedLeftShape | src/redblack/memory.go:231-233 | when `deleteMin` calls `moveRedLeft`, the right child it dereferences exists, and the left subtree it descends into is again balanced and left-leaning |
| Memory.PrepareLeft | src/redblack/memory.go:231-233 | the step before descending leaves a non-nil, smaller, balanced, left-leaning left subtree and keeps the entries |
| Memory.DeleteMinAt | src/redblack/memory.go:226-236 | on a balanced left-leaning subtree, the result holds exactly the entries after the first one, in order, and is nil when there is no left child |
| Memory.DeleteMin | src/redblack/memory.go:110-113 | on a valid tree of at least two nodes, the new root is black and the entries are the old ones without the smallest |
| MemoryProperties.FlipColorsTwice | src/redblack/memory.go:47-51 | flipping twice restores the node exactly |
| MemoryProperties.RotateLeftThenRight | src/redblack/memory.go:175-191 | rotating right undoes rotating left on a node whose right link is red |
| MemoryProperties.RotateRightThenLeft | src/redblack/memory.go:175-191 | rotating left undoes rotating right on a node whose left link is red |
| MemoryProperties.SizeIsKeyCount | src/redblack/memory.go:115-124 | on an ordered tree the size is the number of distinct keys |
| MemoryProperties.ReplaceValue | src/redblack/memory.go:159-160 | overwriting the value at an equal key keeps the order and keys and updates the map at that key only |
| MemoryProperties.ReplaceLeft | src/redblack/memory.go:161-162 | reattaching a left subtree that gained key k keeps the tree ordered, adds k to its keys and maps k to the new value |
| MemoryProperties.ReplaceRight | src/redblack/memory.go:163-164 | reattaching a right subtree that gained key k keeps the tree ordered, adds k to its keys and maps k to the new value |
| MemoryProperties.InsertAtContents | src/redblack/memory.go:150-173 | recursive insert keeps the tree ordered, adds exactly the key, and maps it to the value with every other key unchanged |
| MemoryProperties.InsertContents | src/redblack/memory.go:100-103 | `Insert` keeps the order, adds exactly the key, updates only that key's value, and grows the size by one exactly when the key was new |
| MemoryProperties.SizeAfterAddingKey | src/redblack/memory.go:115-124 | between two ordered trees whose key sets differ by one key, the sizes differ by one exactly when that key was new |
| MemoryProperties.LeftmostKeyIsLeast | src/redblack/memory.go:226-230 | the node where `deleteMin` stops holds the first in-order key, which on an ordered tree is the least key |
| MemoryProperties.DropFirst | src/redblack/memory.go:226-236 | dropping the first of sorted entries keeps them sorted and removes exactly the first key from the key set and the map |
| MemoryProperties.DeleteMinContents | src/redblack/memory.go:110-113 | `DeleteMin` keeps the order, removes exactly the least key from the keys and the map, and shrinks the size by one |
| MemoryProperties.FiveKeysValid | src/redblack/memory_test.go:60-64 | the tree that five ascending inserts build is a five-node red-black tree |
| MemoryProperties.InsertFiveAscending | src/redblack/memory_test.go:60-64 | inserting five ascending keys into the empty tree builds a black root over a black leaf and a 4-node: a black node with two red leaves |
| MemoryProperties.DeleteMinCanBreakLeftLean | src/redblack/memory.go:197-236 | on that valid five-key tree, delete-minimum returns a tree with a red right child under a node with no left child, so the left-leaning rule fails; that right subtree is exactly what `moveRedLeft` at the root produced |
| InsertBalance.RotateLeftBalanced | src/redblack/memory.go:175-182 | rotating left at a red right link keeps equal black heights and the node's black height |
| InsertBalance.RotateRightBalanced | src/redblack/memory.go:184-191 | rotating right at a red left link keeps equal black heights and the node's black height |
| InsertBalance.FlipFourNode | src/redblack/memory.go:155-157 | splitting a valid 4-node gives a valid red node of the same black height with black children and black grandchildren |
| InsertBalance.FixUpRed | src/redblack/memory.go:166-171 | at a red node whose child was replaced by a valid subtree, the fix-up keeps the node red and balanced, and leaves it valid or red over red on the left |
| InsertBalance.FixUpBlack | src/redblack/memory.go:166-171 | at a black node whose left child may be red over red, the fix-up produces a valid black node of the same black height |
| InsertBalance.SplitFourNodeShape | src/redblack/memory.go:155-157 | the flip on the way down keeps a valid node valid, changes only 4-nodes (turning them red over black non-4-nodes), and leaves no two red children |
| InsertBalance.FixUpAfterInsert | src/redblack/memory.go:166-171 | when one child was replaced as recursive insert returns it, the fix-up rotations give what one insertion step promises |
| InsertBalance.InsertAtShape | src/redblack/memory.go:150-173 | each insert step keeps the black height: nil or a 4-node becomes a valid red subtree, another black node a valid black one, and a red node stays red and is valid or red over red on the left |
| InsertBalance.BlackenValid | src/redblack/memory.go:102 | forcing the root of a valid subtree black gives a tree with every red-black invariant |
| InsertBalance.InsertKeepsInvariant | src/redblack/memory.go:100-103 | `Insert` keeps black root, equal black height, no red-red link and left-leaning reds |
| MemoryTest.VisitNodes | src/redblack/memory_test.go:238-244 | the walker visits the tree itself first and then one entry per node and one per missing child, 2n + 1 in all |
| MemoryTest.LeafPaths | src/redblack/memory_test.go:254-278 | the empty tree reports no path, any other tree at least one and at most one per node; `MemoryTest.LeafPathsAreRootToLeaf` states their shape |
| MemoryTest.BlackCount | src/redblack/memory_test.go:136-145 | a path's black count is at most its length; `MemoryTest.LeafPathsBlackCount` ties it to the black height |
| MemoryTest.DepthFrom | src/redblack/memory_test.go:191-206 | the walker never reports less than the depth it starts at; `MemoryTest.DepthFromIsDepth` gives its exact value |
| MemoryTest.MaxDepth | src/redblack/memory_test.go:183-190 | the bound is at least 1, and for two or more nodes half of it is a logarithm covering the size |
| MemoryTest.Prefix | src/redblack/memory_test.go:260-271 | each path of the result is the corresponding given path with the node put in front |
| MemoryTest.LeafPathOfNode | src/redblack/memory_test.go:260-271 | each path from an inner node is the node followed by a path of its left subtree, or, later in the order, of its right subtree |
| MemoryTest.LeafPathsAreRootToLeaf | src/redblack/memory_test.go:254-278 | every reported path starts at the root, follows child links and ends at a node with no children |
| MemoryTest.CeilLog2 | src/redblack/memory_test.go:187 | the least k with n at most 2^k, the integer reading of the ceiling of the base-2 logarithm |
| MemoryTest.DepthFromIsDepth | src/redblack/memory_test.go:191-207 | the depth walker started at d returns d - 1 plus the height in nodes |
| MemoryTest.LeafPathsBlackCount | src/redblack/memory_test.go:134-145 | in a balanced tree every reported path counts exactly the black height in black nodes |
| MemoryTest.EqualCountsPass | src/redblack/memory_test.go:146-150 | when every path has the same count, the running comparison passes from an unset or matching start |
| MemoryTest.PassMeansEqualCounts | src/redblack/memory_test.go:146-150 | once the expected count is set, passing the comparison means every later path has that count |
| MemoryTest.BalancedPassesPathCheck | src/redblack/memory_test.go:129-158 | a tree with equal black heights to the nil terminals passes the path check |
| MemoryTest.PathCheckIsEqualCounts | src/redblack/memory_test.go:129-158 | on a tree with a black or nil root, the path check passes exactly when all reported paths have the same black count |
| MemoryTest.PathCheckWeakerThanBalance | src/redblack/memory_test.go:257-259 | paths end only at nodes with no children, so a black node with one black child passes the check while being unbalanced |
| MemoryTest.PathCheckSkipsZeroCounts | src/redblack/memory_test.go:146-150 | a count of zero never sets the expected count, so a red-rooted tree with path counts 0 and 1 passes |
| MemoryTest.RedCheckIsRedChildrenBlack | src/redblack/memory_test.go:160-179 | the visitor check of red nodes passes exactly when no red node has a red child |
| MemoryTest.DepthWithinBlackHeight | src/redblack/memory_test.go:181-214 | with no red-red link and equal black heights, the height is at most twice the black height, plus one under a red root |
| MemoryTest.SizeWithinBlackHeight | src/redblack/memory_test.go:181-214 | a balanced tree has at least 2^bh - 1 nodes |
| MemoryTest.DepthBound | src/redblack/memory_test.go:181-214 | a red-black tree passes the depth check: depth at most twice the ceiling logarithm of the size, or 1 for a single node |
| MemoryTest.InvariantPassesChecks | src/redblack/memory_test.go:96-104 | a red-black tree passes the black-root, path, red-children and depth checks |
| MemoryTest.EmptyTreePassesChecks | src/redblack/memory_test.go:10-20 | the empty tree has size 0 and passes every check |
| MemoryTest.InsertAllContents | src/redblack/memory.go:100-103 | any sequence of inserts keeps an ordered red-black tree, whose map is the old map overridden by the inserted entries, later ones winning |
| MemoryTest.InsertAllPassesChecks | src/redblack/memory_test.go:96-104 | after any sequence of inserts the tree passes every check |
| MemoryTest.CheckBlackRoot | src/redblack/memory_test.go:106-116 | the root is nil or not red; `MemoryTest.InvariantPassesChecks` shows every red-black tree passes it |
| MemoryTest.SameBlackCount | src/redblack/memory_test.go:146-150 | the running comparison, 0 meaning unset; `MemoryTest.EqualCountsPass` and `MemoryTest.PassMeansEqualCounts` state when it passes |
| MemoryTest.CheckAllPathsSameNumberBlack | src/redblack/memory_test.go:129-158 | the comparison run over the reported paths; `MemoryTest.PathCheckIsEqualCounts` shows it passes exactly when all counts agree under a black root |
| MemoryTest.CheckChildrenOfRedAreBlack | src/redblack/memory_test.go:160-179 | every visited red node has no red child; `MemoryTest.RedCheckIsRedChildrenBlack` shows it is the no-red-red invariant |
| MemoryTest.CheckDepth | src/redblack/memory_test.go:181-214 | the empty tree passes, any other tree passes when the walker's depth is within `MaxDepth` of its size; `MemoryTest.DepthBound` shows red-black trees pass |
| MemoryTest.CheckInvariants | src/redblack/memory_test.go:96-104 | the conjunction of the four checks; `MemoryTest.InvariantPassesChecks` shows red-black trees pass it |
| GoCount.LeftOf | src/redblack/memory.go:33-38 | `Left` returns the nil interface on a nil receiver and otherwise the left pointer, which heads fewer interface values |
| GoCount.RightOf | src/redblack/memory.go:40-45 | `Right` returns the nil interface on a nil receiver and otherwise the right pointer, which heads fewer interface values |
| GoCount.CountAsWritten | src/redblack/memory.go:116-122 | the `count` closure, which stops only at the nil interface; `GoCount.SizeAsWrittenCountsNilLinks` gives its value |
| GoCount.SizeAsWritten | src/redblack/memory.go:115-124 | `Size` as Go evaluates it, `count` applied to the root pointer; `GoCount.SizeAsWrittenCountsNilLinks` shows it is 2n + 1 |
| GoCount.SizeAsWrittenCountsNilLinks | src/redblack/memory.go:115-124 | the count as Go evaluates it is twice the node count plus one: every node and every missing child |
| GoCount.SizeAsWrittenMiscounts | src/redblack/memory.go:115-124 | as written the empty tree counts 1 and a one-node tree 3, where they hold 0 and 1 nodes |
| GoDeleteMin.DeleteMinAsWritten | src/redblack/memory.go:197-236 | `deleteMin` on any subtree: it faults on nil and when `moveRedLeft` flips a missing right child, returns nil at a node without a left child, and otherwise leaves a proper suffix of the in-order entries, so at least the least entry is gone and the order is kept, but more may be lost |
| GoDeleteMin.DeleteMinRootAsWritten | src/redblack/memory.go:110-113 | the public `DeleteMin` on any tree: it faults on trees of at most one node; on success the root is black and the entries are a proper suffix of the old ones |
| GoDeleteMin.AsWrittenAgreesOnLeftLeaning | src/redblack/memory.go:197-236 | on a balanced left-leaning subtree the code does not fault and computes `Memory.DeleteMinAt`, so it drops exactly the least entry |
| GoDeleteMin.AsWrittenAgreesOnRedBlack | src/redblack/memory.go:110-113 | on a red-black tree of at least two nodes the public call does not fault and computes `Memory.DeleteMin` |
| GoDeleteMin.FirstDeleteMinAsWritten | src/redblack/memory.go:110-113 | on the tree five ascending inserts build, the first `DeleteMin` leaves a node with a red right child and no left child |
| GoDeleteMin.RefillAfterDeleteMin | src/redblack/memory.go:150-173 | inserting a larger key and then a middle key into that tree leaves a black node whose red left child has no left child and a red right child |
| GoDeleteMin.DeleteMinRefilled | src/redblack/memory.go:226-236 | the first of three further `DeleteMin` calls on that tree, step by step through `moveRedLeft` and `fixUp` |
| GoDeleteMin.DeleteMinOneRemoved | src/redblack/memory.go:226-236 | the second further call, which removes only the least key |
| GoDeleteMin.DeleteMinTwoRemoved | src/redblack/memory.go:216-236 | the third further call, whose `fixUp` rotates the red right child up and leaves a red node with only a red right child |
| GoDeleteMin.DeleteMinDropsRightChild | src/redblack/memory.go:226-230 | on a black root whose red left child has only a red right child, `DeleteMin` returns the root alone: of the keys left after the least one, only the largest remains |
| GoDeleteMin.DeleteMinLosesKeyReachable | src/redblack/memory.go:100-113 | through `Insert` and `DeleteMin` only, the keys 0, 1, 2, 4, 5, a delete, 6, 3 and four deletes lose key 5 on the fourth delete |
| MemoryScenarios.InsertInto | src/redblack/memory.go:100-103 | inserting into an ordered red-black tree keeps it one, maps the key to the value and adds exactly that key |
| MemoryScenarios.SearchAfterInsert | src/redblack/memory_test.go:22-35 | after an insert, searching the key finds the value, and searching any other key finds what it held before |
| MemoryScenarios.SingleKeyTree | src/redblack/memory_test.go:22-35 | inserting 1 gives a one-node tree that passes the checks, and searching 1 finds "one" |
| MemoryScenarios.DoubleKeyTree | src/redblack/memory_test.go:37-56 | inserting 1 and 2 gives a two-node tree that passes the checks and finds both values |
| MemoryScenarios.MultipleKeyTree | src/redblack/memory_test.go:58-80 | inserting 1 to 6 gives a six-node tree that passes the checks; searching 1 and 5 finds "one" and "five" |
| MemoryScenarios.KeyRange | src/redblack/memory_test.go:84 | the keys from lo up to but not including hi, with the expected count |
| MemoryScenarios.NameUpTo | src/redblack/memory_test.go:84-86 | the map from 0 .. n-1 to their names |
| MemoryScenarios.KeyCountPassesChecks | src/redblack/memory_test.go:87-90 | a red-black tree holding n distinct keys has n nodes, passes the checks and is within the depth bound for n |
| MemoryScenarios.CeilLog2Of75 | src/redblack/memory_test.go:187 | the ceiling of the base-2 logarithm of 75 is 7 |
| MemoryScenarios.LotsOfKeys | src/redblack/memory_test.go:82-91 | inserting 0 to 74 keeps the invariants after every insert and ends with a 75-node tree, at most 14 deep, mapping each key to its name |

## Left out

- `Delete` and `delete` (`memory.go:105-108`, `193-195`): `delete` is a stub that returns nil. `Delete` then sets the colour of a nil root, which would fault. There is no algorithm to model.
- Memory.DeleteMin: requires a red-black tree with at least two nodes. The Go code faults on the empty tree, because `deleteMin` reads `h.left` of nil. It also faults on a one-node tree, because `DeleteMin` then sets the colour of the nil root. Outside the requires the code can fault or lose keys, and trees after an earlier `DeleteMin` can fall outside it; `GoDeleteMin.DeleteMinRootAsWritten` models those calls and Findings records the key loss.
- Memory.DeleteMinAt: states no colour invariant for its result. `moveRedLeft` can turn a 4-node left by insertion into a right-leaning node, and `MemoryProperties.DeleteMinCanBreakLeftLean` shows the left-leaning rule failing after one call. Its contract covers the entries, keys, map and order only. It requires a balanced left-leaning subtree, which the trees reachable after such a call need not be; on them `GoDeleteMin.DeleteMinAsWritten` drops the right child of the node where the descent stops.
- Memory.MoveRedRight: nothing in `memory.go` calls it, so the model states only that it keeps the entries.
- Memory.Size: counts nodes. Go's `count` compares a `Node` interface value with nil, and a nil `*memoryNode` inside an interface is not nil. As written, `Size` therefore also counts every missing child: 2n + 1 for n nodes, 1 for the empty tree. The model reads such a comparison as "no node", the evident intent, and records the as-written count under Findings.
- MemoryTest.VisitNodes, MemoryTest.LeafPaths and MemoryTest.DepthFrom read the walkers' comparisons of `Left()`, `Right()` and path entries with nil the same way, as "no child". Under Go's interface rule, `visitPaths` would extend every path to a nil pointer and the path check would then call `Color()` on it, and `checkDepth` would take its bound from the 2n + 1 count. The tests also call `Root()` and `isRed()`, which `memory.go` does not define, so the tests do not build as written.
- `checkTwoColors` (`memory_test.go:216-234`) is a heuristic about which colours occur. The red-black invariant does not imply it, so `MemoryTest.CheckInvariants` leaves it out.
- `checkAllLeavesBlack` (`memory_test.go:118-127`) always returns true and is left out of the checks.
- `visitLeaves` (`memory_test.go:246-252`) is the same walker as `visitNodes`, which is modelled as `MemoryTest.VisitNodes`.
- The `String` methods, the `log4go` logging and the colour list built in the path check are diagnostics only.
- MemoryTest.MaxDepth: computes the depth bound with the integer `CeilLog2` instead of the floating-point `math.Ceil(math.Log2(...))`. The two agree for every size a tree in memory can reach, far below 2^49. Float rounding is not modelled.
- Keys are `int`. `memory.go` calls `Compare` while `redblack.go:27` declares `CompareTo`; both are read as one total order. Values are a type parameter. In the scenarios, the `StringValue` of a key's decimal form is the `name` function passed in.
- The tests' `Root()` and `isRed()` are read as the root field and `IsRed`. The `LLRB` and `node` interfaces of `redblack.go` are not modelled. The `Node` type that `memory.go` returns from `Left` and `Right` is not declared in `redblack.go`; it is read as an interface holding a `*memoryNode`.
- The append-only, persistent storage that `doc.go:5-7` announces does not exist in the code.
- `NewMemoryLLRB` is the empty tree `Nil`. The accessors `Key`, `Value`, `Left`, `Right` and `Color` are field selection.
- MemoryScenarios.LotsOfKeys: the scenario states the final map instead of searching, since `TestLotsOfKeys` only runs the checks.

## Findings

| source | as written | input that shows it | evidently intended | confidence | as-written member | corrected member |
|---|---|---|---|---|---|---|
| src/redblack/memory.go:115-124 | `count` stops only at the nil interface, but `count(tree.root)` and `Left()`/`Right()` hand it a nil `*memoryNode` wrapped in a non-nil `Node`, so every missing child is counted | the empty tree gives 1 and a one-node tree gives 3 | the number of nodes, 0 and 1 | medium, not executed; `redblack.go` does not declare `Node` | GoCount.SizeAsWrittenCountsNilLinks | MemoryProperties.SizeIsKeyCount |
| src/redblack/memory.go:226-236 | `deleteMin` returns nil at the first node without a left child, which drops that node's right child; after an earlier `DeleteMin` has left a right-leaning node, inserts can hang a red right child there | insert 0, 1, 2, 4, 5; `DeleteMin`; insert 6, 3; `DeleteMin` four times: the fourth removes 4 and 5, leaving only 6 | each `DeleteMin` removes only the least key | high, not executed | GoDeleteMin.DeleteMinLosesKeyReachable | MemoryProperties.DeleteMinContents |

=== FILE: gocount.dfy ===
/**
  The node count of `memoryLLRB.Size` as Go evaluates it. `count` takes a
  `Node` interface value and compares it with nil, but a nil `*memoryNode`
  stored in an interface is not the nil interface, so the test passes at
  every missing child. Only `Left` and `Right` called on a nil pointer
  return the nil interface, through their nil-receiver guard. Each missing
  child is therefore counted once, on top of every node.
 */
module GoCount {
  import opened RedBlack
  import opened Memory

  /** A `Node` interface value: the nil interface, or a `*memoryNode` pointer that may itself be nil. */
  datatype NodeValue<V> = NilInterface | Pointer(target: Tree<V>)

  /** Termination measure: a pointer to a subtree of n nodes heads 2n + 1 interface values. */
  function Weight<V>(h: NodeValue<V>): nat {
    match h
    case NilInterface => 0
    case Pointer(t) => 2 * Size(t) + 1
  }

  /** `Left`: the nil interface on a nil receiver, otherwise the left pointer, nil or not. */
  function LeftOf<V>(h: NodeValue<V>): (r: NodeValue<V>)
    requires h.Pointer?
    ensures Weight(r) < Weight(h)
  {
    if h.target.Nil? then NilInterface else Pointer(h.target.left)
  }

  /** `Right`: the nil interface on a nil receiver, otherwise the right pointer, nil or not. */
  function RightOf<V>(h: NodeValue<V>): (r: NodeValue<V>)
    requires h.Pointer?
    ensures Weight(r) < Weight(h)
  {
    if h.target.Nil? then NilInterface else Pointer(h.target.right)
  }

  /** The closure `count`, which stops only at the nil interface. */
  function CountAsWritten<V>(h: NodeValue<V>): nat
    decreases Weight(h)
  {
    if h.NilInterface? then 0 else 1 + CountAsWritten(LeftOf(h)) + CountAsWritten(RightOf(h))
  }

  /** `Size` as written: `count` applied to the root pointer. */
  function SizeAsWritten<V>(root: Tree<V>): nat {
    CountAsWritten(Pointer(root))
  }

  /** As written, the count is the number of nodes plus the number of missing children. */
  lemma {:induction false} SizeAsWrittenCountsNilLinks<V>(t: Tree<V>)
    ensures SizeAsWritten(t) == 2 * Size(t) + 1
  {
    match t
    case Nil =>
      assert LeftOf(Pointer(t)) == NilInterface && RightOf(Pointer(t)) == NilInterface;
    case Node(_, l, _, _, r) =>
      SizeAsWrittenCountsNilLinks(l);
      SizeAsWrittenCountsNilLinks(r);
      assert LeftOf(Pointer(t)) == Pointer(l) && RightOf(Pointer(t)) == Pointer(r);
  }

  /** The empty tree counts 1 and a one-node tree counts 3, where they hold 0 and 1 nodes. */
  lemma SizeAsWrittenMiscounts<V>(k: int, v: V)
    ensures SizeAsWritten<V>(Nil) == 1 && Size<V>(Nil) == 0
    ensures SizeAsWritten(Node(BLACK, Nil, k, v, Nil)) == 3 && Size(Node(BLACK, Nil, k, v, Nil)) == 1
  {
    SizeAsWrittenCountsNilLinks<V>(Nil);
    SizeAsWrittenCountsNilLinks(Node(BLACK, Nil, k, v, Nil));
  }
}

=== FILE: godeletemin.dfy ===
/**
  `deleteMin` as Go runs it, on any tree rather than only on the balanced
  left-leaning ones `Memory.DeleteMinAt` accepts. A nil dereference is
  `None`. The recursion stops at the first node without a left child and
  returns nil in its place, so that node's right child is dropped with it.
  After one `DeleteMin` a tree can lean right, the next inserts can put a
  red right child under such a node, and later calls then lose a key.
 */
module GoDeleteMin {
  import opened RedBlack
  import opened Invariants
  import opened Memory
  import opened MemoryProperties

  /** `s` is what remains of `t` after dropping at least its first element. */
  ghost predicate ProperSuffix<T>(s: seq<T>, t: seq<T>)
  {
    |s| < |t| && s == t[|t| - |s|..]
  }

  /**
    The recursive `deleteMin` on any subtree. `None` when Go dereferences
    nil: `h.left` of a nil `h`, or the flip of a nil right child in
    `moveRedLeft`. Every other step stays on nodes that exist.
   */
  function DeleteMinAsWritten<V>(h: Tree<V>): (r: Option<Tree<V>>)
    ensures h.Nil? ==> r.None?
    ensures h.Node? && h.left.Nil? ==> r == Some(Nil)
    ensures r.Some? ==> ProperSuffix(Inorder(r.value), Inorder(h))
    decreases Size(h)
  {
    if h.Nil? then None
    else if h.left.Nil? then Some(Nil)
    else
      var moved :=
        if !IsRed(h.left) && !IsRed(h.left.left) then
          if h.right.Nil? then None else Some(MoveRedLeft(h))
        else Some(h);
      match moved
      case None => None
      case Some(h1) =>
        match DeleteMinAsWritten(h1.left)
        case None => None
        case Some(l) =>
          SuffixOnLeft(h1, l);
          Some(FixUp(h1.(left := l)))
  }

  /** Replacing the left subtree by a proper suffix of it leaves a proper suffix of the whole tree. */
  lemma SuffixOnLeft<V>(h: Tree<V>, l: Tree<V>)
    requires h.Node? && ProperSuffix(Inorder(l), Inorder(h.left))
    ensures ProperSuffix(Inorder(h.(left := l)), Inorder(h))
  {
    var s := Inorder(h.left);
    var rest := [Entry(h.key, h.value)] + Inorder(h.right);
    var j := |s| - |Inorder(l)|;
    assert Inorder(h) == s + rest;
    assert Inorder(h.(left := l)) == s[j..] + rest;
    assert (s + rest)[j..] == s[j..] + rest;
  }

  /**
    The public `DeleteMin`: `deleteMin` on the root, then the root coloured
    black, which faults when the result is the nil pointer.
   */
  function DeleteMinRootAsWritten<V>(root: Tree<V>): (r: Option<Tree<V>>)
    ensures r.Some? ==> r.value.Node? && !IsRed(r.value)
    ensures r.Some? ==> ProperSuffix(Inorder(r.value), Inorder(root))
    ensures Size(root) <= 1 ==> r.None?
  {
    match DeleteMinAsWritten(root)
    case None => None
    case Some(t) => if t.Nil? then None else Some(SetColor(t, BLACK))
  }

  /** On a balanced left-leaning subtree the code is `Memory.DeleteMinAt`: it neither faults nor drops more than the least entry. */
  lemma {:induction false} AsWrittenAgreesOnLeftLeaning<V>(h: Tree<V>)
    requires h.Node? && Balanced(h) && LeansLeft(h)
    ensures DeleteMinAsWritten(h) == Some(DeleteMinAt(h))
    decreases Size(h)
  {
    if h.left.Node? {
      if !IsRed(h.left) && !IsRed(h.left.left) {
        MoveRedLeftShape(h);
      }
      var h1 := PrepareLeft(h);
      AsWrittenAgreesOnLeftLeaning(h1.left);
    }
  }

  /** On a red-black tree of two or more nodes the public call is `Memory.DeleteMin`. */
  lemma AsWrittenAgreesOnRedBlack<V>(root: Tree<V>)
    requires RedBlackInvariant(root) && Size(root) >= 2
    ensures DeleteMinRootAsWritten(root) == Some(DeleteMin(root))
  {
    AsWrittenAgreesOnLeftLeaning(root);
  }

  /** The tree that ascending inserts of five keys leave after one `DeleteMin`. */
  function AfterFirstDeleteMin<V>(b: int, c: int, e: int, f: int, v: V): Tree<V>
  {
    Node(BLACK, Node(BLACK, Nil, b, v, Nil), c, v, Node(BLACK, Nil, e, v, Node(RED, Nil, f, v, Nil)))
  }

  /** That tree after inserting `g` and then `d`. */
  function Refilled<V>(b: int, c: int, d: int, e: int, f: int, g: int, v: V): Tree<V>
  {
    Node(BLACK, Node(BLACK, Nil, b, v, Nil), c, v,
         Node(BLACK, Node(RED, Nil, d, v, Nil), e, v, Node(RED, Node(RED, Nil, f, v, Nil), g, v, Nil)))
  }

  /** The refilled tree after one, two and three more `DeleteMin` calls. */
  function OneRemoved<V>(c: int, d: int, e: int, f: int, g: int, v: V): Tree<V>
  {
    Node(BLACK, Node(BLACK, Nil, c, v, Nil), d, v, Node(BLACK, Nil, e, v, Node(RED, Node(RED, Nil, f, v, Nil), g, v, Nil)))
  }

  function TwoRemoved<V>(d: int, e: int, f: int, g: int, v: V): Tree<V>
  {
    Node(BLACK, Node(RED, Nil, d, v, Nil), e, v, Node(RED, Node(RED, Nil, f, v, Nil), g, v, Nil))
  }

  function ThreeRemoved<V>(e: int, f: int, g: int, v: V): Tree<V>
  {
    Node(BLACK, Node(RED, Nil, e, v, Node(RED, Nil, f, v, Nil)), g, v, Nil)
  }

  /** The first `DeleteMin` runs on a red-black tree, where the code is the model. */
  lemma FirstDeleteMinAsWritten<V>(a: int, b: int, c: int, e: int, f: int, v: V)
    ensures DeleteMinRootAsWritten(FiveKeys(a, b, c, e, f, v)) == Some(AfterFirstDeleteMin(b, c, e, f, v))
  {
    DeleteMinCanBreakLeftLean(a, b, c, e, f, v);
    AsWrittenAgreesOnRedBlack(FiveKeys(a, b, c, e, f, v));
  }

  /** Inserting `g` and then `d` puts a red right child below a red node that has no left child. */
  lemma RefillAfterDeleteMin<V>(b: int, c: int, d: int, e: int, f: int, g: int, v: V)
    requires b < c < d < e < f < g
    ensures Insert(Insert(AfterFirstDeleteMin(b, c, e, f, v), g, v), d, v) == Refilled(b, c, d, e, f, g, v)
  {
    var t := AfterFirstDeleteMin(b, c, e, f, v);
    var rf := Node(RED, Nil, f, v, Nil);
    assert InsertAt(rf.right, g, v) == Node(RED, Nil, g, v, Nil);
    assert InsertAt(rf, g, v) == Node(RED, Node(RED, Nil, f, v, Nil), g, v, Nil);
    var leaning := Node(BLACK, Node(RED, Nil, e, v, Node(RED, Nil, f, v, Nil)), g, v, Nil);
    assert InsertAt(t.right, g, v) == leaning;
    var t1 := Node(BLACK, t.left, c, v, leaning);
    assert Insert(t, g, v) == t1;
    var re := leaning.left;
    assert InsertAt(re.left, d, v) == Node(RED, Nil, d, v, Nil);
    assert InsertAt(re, d, v) == Node(RED, Node(RED, Nil, d, v, Nil), e, v, Node(RED, Nil, f, v, Nil));
    assert InsertAt(leaning, d, v) == Refilled(b, c, d, e, f, g, v).right;
  }

  lemma DeleteMinRefilled<V>(b: int, c: int, d: int, e: int, f: int, g: int, v: V)
    ensures DeleteMinRootAsWritten(Refilled(b, c, d, e, f, g, v)) == Some(OneRemoved(c, d, e, f, g, v))
  {
    var t := Refilled(b, c, d, e, f, g, v);
    var rg := Node(RED, Node(RED, Nil, f, v, Nil), g, v, Nil);
    var h1 := FlipColors(t);
    assert h1 == Node(RED, Node(RED, Nil, b, v, Nil), c, v, Node(RED, Node(RED, Nil, d, v, Nil), e, v, rg));
    var x := RotateRight(h1.right);
    assert x == Node(RED, Nil, d, v, Node(RED, Nil, e, v, rg));
    var h2 := RotateLeft(h1.(right := x));
    assert h2 == Node(RED, Node(RED, Node(RED, Nil, b, v, Nil), c, v, Nil), d, v, Node(RED, Nil, e, v, rg));
    var moved := FlipColors(h2);
    assert MoveRedLeft(t) == moved;
    var bc := moved.left;
    assert bc == Node(BLACK, Node(RED, Nil, b, v, Nil), c, v, Nil);
    assert DeleteMinAsWritten(bc.left) == Some(Nil);
    assert FixUp(bc.(left := Nil)) == Node(BLACK, Nil, c, v, Nil);
    assert DeleteMinAsWritten(bc) == Some(Node(BLACK, Nil, c, v, Nil));
    assert FixUp(moved.(left := Node(BLACK, Nil, c, v, Nil))) == OneRemoved(c, d, e, f, g, v);
    assert DeleteMinAsWritten(t) == Some(OneRemoved(c, d, e, f, g, v));
  }

  lemma DeleteMinOneRemoved<V>(c: int, d: int, e: int, f: int, g: int, v: V)
    ensures DeleteMinRootAsWritten(OneRemoved(c, d, e, f, g, v)) == Some(TwoRemoved(d, e, f, g, v))
  {
    var t := OneRemoved(c, d, e, f, g, v);
    var rg := Node(RED, Node(RED, Nil, f, v, Nil), g, v, Nil);
    var moved := FlipColors(t);
    assert moved == Node(RED, Node(RED, Nil, c, v, Nil), d, v, Node(RED, Nil, e, v, rg));
    assert MoveRedLeft(t) == moved;
    assert DeleteMinAsWritten(moved.left) == Some(Nil);
    var h := moved.(left := Nil);
    assert FixUp(h) == Node(RED, Node(RED, Nil, d, v, Nil), e, v, rg);
    assert DeleteMinAsWritten(t) == Some(Node(RED, Node(RED, Nil, d, v, Nil), e, v, rg));
  }

  lemma DeleteMinTwoRemoved<V>(d: int, e: int, f: int, g: int, v: V)
    ensures DeleteMinRootAsWritten(TwoRemoved(d, e, f, g, v)) == Some(ThreeRemoved(e, f, g, v))
  {
    var t := TwoRemoved(d, e, f, g, v);
    assert DeleteMinAsWritten(t.left) == Some(Nil);
    var h := t.(left := Nil);
    assert RotateLeft(h) == ThreeRemoved(e, f, g, v);
    assert FixUp(h) == ThreeRemoved(e, f, g, v);
    assert DeleteMinAsWritten(t) == Some(ThreeRemoved(e, f, g, v));
  }

  /**
    At a red node with no left child `deleteMin` returns nil and so drops
    that node's red right child as well: removing the least of three keys
    leaves one.
   */
  lemma DeleteMinDropsRightChild<V>(e: int, f: int, g: int, v: V)
    requires e < f < g
    ensures DeleteMinRootAsWritten(ThreeRemoved(e, f, g, v)) == Some(Node(BLACK, Nil, g, v, Nil))
    ensures Ordered(ThreeRemoved(e, f, g, v)) && LeftmostKey(ThreeRemoved(e, f, g, v)) == e
    ensures Keys(ThreeRemoved(e, f, g, v)) - {e} == {f, g}
    ensures Keys(Node(BLACK, Nil, g, v, Nil)) == {g}
  {
    var t := ThreeRemoved(e, f, g, v);
    assert Keys(t.left.right) == {f};
    assert Keys(t.left) == {e, f};
    assert Ordered(t.left);
    assert DeleteMinAsWritten(t.left) == Some(Nil);
    assert FixUp(t.(left := Nil)) == Node(BLACK, Nil, g, v, Nil);
    assert DeleteMinAsWritten(t) == Some(Node(BLACK, Nil, g, v, Nil));
  }

  /**
    Through the public operations only: insert 0, 1, 2, 4 and 5 (here
    `a` to `f` without `d`), delete the minimum, insert 6 and 3, and delete
    the minimum four times. The fourth call removes two keys, leaving only
    `g` where `f` and `g` should remain.
   */
  lemma DeleteMinLosesKeyReachable<V>(a: int, b: int, c: int, d: int, e: int, f: int, g: int, v: V)
    requires a < b < c < d < e < f < g
    ensures Insert(Insert(Insert(Insert(Insert(Nil, a, v), b, v), c, v), e, v), f, v) == FiveKeys(a, b, c, e, f, v)
    ensures DeleteMinRootAsWritten(FiveKeys(a, b, c, e, f, v)) == Some(AfterFirstDeleteMin(b, c, e, f, v))
    ensures Insert(Insert(AfterFirstDeleteMin(b, c, e, f, v), g, v), d, v) == Refilled(b, c, d, e, f, g, v)
    ensures DeleteMinRootAsWritten(Refilled(b, c, d, e, f, g, v)) == Some(OneRemoved(c, d, e, f, g, v))
    ensures DeleteMinRootAsWritten(OneRemoved(c, d, e, f, g, v)) == Some(TwoRemoved(d, e, f, g, v))
    ensures DeleteMinRootAsWritten(TwoRemoved(d, e, f, g, v)) == Some(ThreeRemoved(e, f, g, v))
    ensures DeleteMinRootAsWritten(ThreeRemoved(e, f, g, v)) == Some(Node(BLACK, Nil, g, v, Nil))
    ensures Keys(ThreeRemoved(e, f, g, v)) - {LeftmostKey(ThreeRemoved(e, f, g, v))} == {f, g}
  {
    InsertFiveAscending(a, b, c, e, f, v);
    FirstDeleteMinAsWritten(a, b, c, e, f, v);
    RefillAfterDeleteMin(b, c, d, e, f, g, v);
    DeleteMinRefilled(b, c, d, e, f, g, v);
    DeleteMinOneRemoved(c, d, e, f, g, v);
    DeleteMinTwoRemoved(d, e, f, g, v);
    DeleteMinDropsRightChild(e, f, g, v);
  }
}

=== FILE: insertbalance.dfy ===
/**
  Insertion keeps the red-black invariants. The top-down variant splits a
  4-node (a black node with two red children) on the way down, so a call
  on a red node may hand back a red node with a red left child; the
  caller, whose node is black, rotates that pair into a 4-node.
 */
module InsertBalance {
  import opened RedBlack
  import opened Invariants
  import opened Memory

  /** A black node with two red children. */
  predicate FourNode<V>(h: Tree<V>) {
    h.Node? && !IsRed(h) && IsRed(h.left) && IsRed(h.right)
  }

  /** A red node over a red left child: the only defect an insertion below a red node leaves. */
  predicate RedRedLeft<V>(t: Tree<V>) {
    && t.Node? && t.color == RED && IsRed(t.left) && !IsRed(t.right)
    && Valid(t.left) && Valid(t.right) && BlackHeight(t.left) == BlackHeight(t.right)
  }

  lemma RotateLeftBalanced<V>(h: Tree<V>)
    requires h.Node? && Balanced(h) && IsRed(h.right)
    ensures Balanced(RotateLeft(h)) && BlackHeight(RotateLeft(h)) == BlackHeight(h)
  {
    assert Balanced(h.right);
  }

  lemma RotateRightBalanced<V>(h: Tree<V>)
    requires h.Node? && Balanced(h) && IsRed(h.left)
    ensures Balanced(RotateRight(h)) && BlackHeight(RotateRight(h)) == BlackHeight(h)
  {
    assert Balanced(h.left);
  }

  /** Splitting a 4-node: the node turns red, its children black, and it stays valid. */
  lemma FlipFourNode<V>(h: Tree<V>)
    requires FourNode(h) && Valid(h)
    ensures Valid(FlipColors(h)) && IsRed(FlipColors(h))
    ensures BlackHeight(FlipColors(h)) == BlackHeight(h)
    ensures !IsRed(FlipColors(h).left) && !IsRed(FlipColors(h).left.left) && !IsRed(FlipColors(h).left.right)
    ensures !IsRed(FlipColors(h).right) && !IsRed(FlipColors(h).right.left) && !IsRed(FlipColors(h).right.right)
  {
    assert RedChildrenBlack(h.left) && RedChildrenBlack(h.right);
    assert LeansLeft(h.left) && LeansLeft(h.right);
    assert Balanced(h.left) && Balanced(h.right);
  }

  /** A red node, after one child was replaced by a valid subtree of equal black height. */
  lemma FixUpRed<V>(h: Tree<V>)
    requires h.Node? && h.color == RED
    requires Valid(h.left) && Valid(h.right) && BlackHeight(h.left) == BlackHeight(h.right)
    requires !(IsRed(h.left) && IsRed(h.right))
    ensures IsRed(FixUp(h)) && Balanced(FixUp(h)) && BlackHeight(FixUp(h)) == BlackHeight(h)
    ensures Valid(FixUp(h)) || RedRedLeft(FixUp(h))
    ensures !IsRed(h.left) && !IsRed(h.right) ==> Valid(FixUp(h))
  {
    if IsRed(h.right) {
      RotateLeftBalanced(h);
      var r := RotateLeft(h);
      assert RedChildrenBlack(h.right) && LeansLeft(h.right) && Balanced(h.right);
      assert r.left == Node(RED, h.left, h.key, h.value, h.right.left);
      assert Valid(r.left);
      assert FixUp(h) == r;
      assert RedRedLeft(r);
    } else if IsRed(h.left) {
      assert RedChildrenBlack(h.left);
      assert FixUp(h) == h;
      assert RedRedLeft(h);
    } else {
      assert FixUp(h) == h;
    }
  }

  /** A black node, after a child was replaced as insertion leaves it. */
  lemma FixUpBlack<V>(h: Tree<V>)
    requires h.Node? && h.color == BLACK
    requires Valid(h.left) || RedRedLeft(h.left)
    requires Valid(h.right) && BlackHeight(h.left) == BlackHeight(h.right)
    requires RedRedLeft(h.left) ==> !IsRed(h.right)
    ensures Valid(FixUp(h)) && !IsRed(FixUp(h)) && BlackHeight(FixUp(h)) == BlackHeight(h)
  {
    if RedRedLeft(h.left) {
      assert Balanced(h);
      RotateRightBalanced(h);
      var r := RotateRight(h);
      assert FixUp(h) == r;
      assert RedChildrenBlack(h.left.left);
      assert r.right == Node(RED, h.left.right, h.key, h.value, h.right);
      assert Valid(r.right);
    } else if IsRed(h.right) && !IsRed(h.left) {
      assert Balanced(h);
      RotateLeftBalanced(h);
      var r := RotateLeft(h);
      assert RedChildrenBlack(h.right) && LeansLeft(h.right) && Balanced(h.right);
      assert r.left == Node(RED, h.left, h.key, h.value, h.right.left);
      assert Valid(r.left);
      assert FixUp(h) == r;
    } else {
      assert IsRed(h.left) ==> !IsRed(h.left.left) by {
        assert RedChildrenBlack(h.left);
      }
      assert FixUp(h) == h;
    }
  }

  /**
    The flip on the way down keeps a valid subtree valid with its black
    height, turns a 4-node red, and leaves no node with two red children
    and no red left child over a red grandchild.
   */
  lemma SplitFourNodeShape<V>(h: Tree<V>)
    requires h.Node? && Valid(h)
    ensures Valid(SplitFourNode(h)) && BlackHeight(SplitFourNode(h)) == BlackHeight(h)
    ensures FourNode(h) ==> SplitFourNode(h).color == RED
    ensures FourNode(h) ==> !IsRed(SplitFourNode(h).left) && !FourNode(SplitFourNode(h).left)
    ensures FourNode(h) ==> !IsRed(SplitFourNode(h).right) && !FourNode(SplitFourNode(h).right)
    ensures !FourNode(h) ==> SplitFourNode(h) == h
    ensures !(IsRed(SplitFourNode(h).left) && IsRed(SplitFourNode(h).right))
    ensures IsRed(SplitFourNode(h).left) ==> !IsRed(SplitFourNode(h).left.left)
  {
    var h1 := SplitFourNode(h);
    assert Valid(h.left) && Valid(h.right);
    if FourNode(h) {
      FlipFourNode(h);
    } else {
      assert IsRed(h.left) && IsRed(h.right) ==> IsRed(h) by {
        assert RedChildrenBlack(h);
      }
    }
    assert IsRed(h1.left) ==> !IsRed(h1.left.left) by {
      assert RedChildrenBlack(h1.left);
    }
  }

  /**
    What one recursive insertion step returns for `h`: the black height is
    kept; on `Nil` or a 4-node the result is a valid red subtree, on any
    other black node a valid black one, and on a red node a red one that is
    valid or leans red-red to the left.
   */
  predicate InsertShape<V>(h: Tree<V>, r: Tree<V>) {
    && Balanced(r) && BlackHeight(r) == BlackHeight(h)
    && (h.Nil? || FourNode(h) ==> Valid(r) && IsRed(r))
    && (h.Node? && !IsRed(h) && !FourNode(h) ==> Valid(r) && !IsRed(r))
    && (IsRed(h) ==> IsRed(r) && (Valid(r) || RedRedLeft(r)))
  }

  /** The rotations on the way up repair a node whose child was replaced as `InsertShape` allows. */
  lemma FixUpAfterInsert<V>(h: Tree<V>, h2: Tree<V>)
    requires h.Node? && Valid(h)
    requires h2.Node? && h2.color == SplitFourNode(h).color
    requires
      || (h2.left == SplitFourNode(h).left && h2.right == SplitFourNode(h).right)
      || (h2.right == SplitFourNode(h).right && InsertShape(SplitFourNode(h).left, h2.left))
      || (h2.left == SplitFourNode(h).left && InsertShape(SplitFourNode(h).right, h2.right))
    ensures InsertShape(h, FixUp(h2))
  {
    var h1 := SplitFourNode(h);
    SplitFourNodeShape(h);
    assert Valid(h1.left) && Valid(h1.right) && BlackHeight(h1.left) == BlackHeight(h1.right);
    assert BlackHeight(h2.left) == BlackHeight(h2.right) && BlackHeight(h2) == BlackHeight(h1);
    if h1.color == RED {
      FixUpRed(h2);
    } else {
      FixUpBlack(h2);
    }
  }

  /** Every insertion step returns what `InsertShape` describes. */
  lemma {:induction false} InsertAtShape<V>(h: Tree<V>, k: int, v: V)
    requires Valid(h)
    ensures InsertShape(h, InsertAt(h, k, v))
    decreases Size(h)
  {
    if h.Node? {
      var h1 := SplitFourNode(h);
      SplitFourNodeShape(h);
      var h2;
      if k == h1.key {
        h2 := h1.(value := v);
      } else if k < h1.key {
        assert Valid(h1.left);
        InsertAtShape(h1.left, k, v);
        h2 := h1.(left := InsertAt(h1.left, k, v));
      } else {
        assert Valid(h1.right);
        InsertAtShape(h1.right, k, v);
        h2 := h1.(right := InsertAt(h1.right, k, v));
      }
      assert InsertAt(h, k, v) == FixUp(h2);
      FixUpAfterInsert(h, h2);
    }
  }

  /** Forcing the root black keeps a valid subtree valid. */
  lemma BlackenValid<V>(h: Tree<V>)
    requires h.Node? && Valid(h)
    ensures RedBlackInvariant(SetColor(h, BLACK))
  {
    assert Valid(h.left) && Valid(h.right);
  }

  /**
    `Insert` keeps all the red-black invariants: black root, equal black
    height, no red node with a red child, and left-leaning red links.
   */
  lemma InsertKeepsInvariant<V>(t: Tree<V>, k: int, v: V)
    requires RedBlackInvariant(t)
    ensures RedBlackInvariant(Insert(t, k, v))
  {
    InsertAtShape(t, k, v);
    BlackenValid(InsertAt(t, k, v));
  }
}

=== FILE: invariants.dfy ===
/**
  The red-black invariants, stated recursively. Black height is measured
  down to the `Nil` terminals, which count as black but add nothing.
 */
module Invariants {
  import opened RedBlack

  /** Number of black nodes on the leftmost path down to `Nil`. */
  function BlackHeight<V>(t: Tree<V>): nat {
    match t
    case Nil => 0
    case Node(c, l, _, _, _) => BlackHeight(l) + (if c == RED then 0 else 1)
  }

  /** Both subtrees of every node have the same black height. */
  predicate Balanced<V>(t: Tree<V>) {
    match t
    case Nil => true
    case Node(_, l, _, _, r) => BlackHeight(l) == BlackHeight(r) && Balanced(l) && Balanced(r)
  }

  /** No red node has a red child. */
  predicate RedChildrenBlack<V>(t: Tree<V>) {
    match t
    case Nil => true
    case Node(c, l, _, _, r) =>
      (c == RED ==> !IsRed(l) && !IsRed(r)) && RedChildrenBlack(l) && RedChildrenBlack(r)
  }

  /**
    The left-leaning rule the insertion enforces: a right child is red only
    if its sibling is red too (a black node may hold two red children).
   */
  predicate LeansLeft<V>(t: Tree<V>) {
    match t
    case Nil => true
    case Node(_, l, _, _, r) => (IsRed(r) ==> IsRed(l)) && LeansLeft(l) && LeansLeft(r)
  }

  /** The invariants every subtree satisfies, whatever the colour of its root. */
  predicate Valid<V>(t: Tree<V>) {
    Balanced(t) && RedChildrenBlack(t) && LeansLeft(t)
  }

  /** The invariants of a whole tree: a valid subtree with a black (or absent) root. */
  predicate RedBlackInvariant<V>(t: Tree<V>) {
    !IsRed(t) && Valid(t)
  }
}

=== FILE: memory.dfy ===
/**
  The in-memory LLRB of `memory.go`. Each Go method that mutates nodes in
  place becomes a pure function returning the new subtree; since no node
  is ever shared, the two readings coincide. A tree is its root.
 */
module Memory {
  import opened RedBlack
  import opened Invariants

  /** Toggles the colour of a node and of both its children; both children must exist. */
  function FlipColors<V>(h: Tree<V>): (r: Tree<V>)
    requires h.Node? && h.left.Node? && h.right.Node?
    ensures r.Node? && r.left.Node? && r.right.Node?
    ensures r.color == !h.color && r.left.color == !h.left.color && r.right.color == !h.right.color
    ensures r.left.left == h.left.left && r.left.right == h.left.right
    ensures r.right.left == h.right.left && r.right.right == h.right.right
    ensures Skeleton(r) == Skeleton(h)
    ensures Inorder(r) == Inorder(h)
  {
    h.(color := !h.color,
       left := h.left.(color := !h.left.color),
       right := h.right.(color := !h.right.color))
  }

  /** The root's colour set, as `SetColor` does. */
  function SetColor<V>(h: Tree<V>, c: Color): (r: Tree<V>)
    requires h.Node?
    ensures r.Node? && r.color == c
    ensures r.left == h.left && r.right == h.right
    ensures Skeleton(r) == Skeleton(h)
    ensures Inorder(r) == Inorder(h)
  {
    h.(color := c)
  }

  /** The right child becomes the top: it takes the old top's colour, and the old top turns red. */
  function RotateLeft<V>(h: Tree<V>): (r: Tree<V>)
    requires h.Node? && h.right.Node?
    ensures r.Node? && r.left.Node?
    ensures r.color == h.color && r.left.color == RED
    ensures r.key == h.right.key && r.value == h.right.value && r.right == h.right.right
    ensures r.left.key == h.key && r.left.value == h.value
    ensures r.left.left == h.left && r.left.right == h.right.left
    ensures Inorder(r) == Inorder(h) && Size(r) == Size(h)
  {
    var x := h.right;
    x.(left := h.(right := x.left, color := RED), color := h.color)
  }

  /** The left child becomes the top: it takes the old top's colour, and the old top turns red. */
  function RotateRight<V>(h: Tree<V>): (r: Tree<V>)
    requires h.Node? && h.left.Node?
    ensures r.Node? && r.right.Node?
    ensures r.color == h.color && r.right.color == RED
    ensures r.key == h.left.key && r.value == h.left.value && r.left == h.left.left
    ensures r.right.key == h.key && r.right.value == h.value
    ensures r.right.left == h.left.right && r.right.right == h.right
    ensures Inorder(r) == Inorder(h) && Size(r) == Size(h)
  {
    var x := h.left;
    x.(right := h.(left := x.right, color := RED), color := h.color)
  }

  /** The two rotation steps applied on the way back up (there is no trailing flip). */
  function FixUp<V>(h: Tree<V>): (r: Tree<V>)
    requires h.Node?
    ensures r.Node?
    ensures Inorder(r) == Inorder(h)
  {
    var h1 := if IsRed(h.right) && !IsRed(h.left) then RotateLeft(h) else h;
    if IsRed(h1.left) && IsRed(h1.left.left) then RotateRight(h1) else h1
  }

  /** The flip `insert` applies on the way down when both children are red. */
  function SplitFourNode<V>(h: Tree<V>): (r: Tree<V>)
    requires h.Node?
    ensures r.Node? && Skeleton(r) == Skeleton(h) && Inorder(r) == Inorder(h)
    ensures Size(r.left) == Size(h.left) && Size(r.right) == Size(h.right)
  {
    if IsRed(h.left) && IsRed(h.right) then FlipColors(h) else h
  }

  /** Recursive top-down insertion: split 4-nodes on the way down, rotate on the way up. */
  function InsertAt<V>(h: Tree<V>, key: int, value: V): (r: Tree<V>)
    ensures r.Node?
    decreases Size(h)
  {
    match h
    case Nil => Node(RED, Nil, key, value, Nil)
    case Node(_, _, _, _, _) =>
      var h1 := SplitFourNode(h);
      var h2 :=
        if key == h1.key then h1.(value := value)
        else if key < h1.key then h1.(left := InsertAt(h1.left, key, value))
        else h1.(right := InsertAt(h1.right, key, value));
      FixUp(h2)
  }

  /** Insert at the root, then force the new root black. */
  function Insert<V>(root: Tree<V>, key: int, value: V): (r: Tree<V>)
    ensures r.Node? && !IsRed(r)
  {
    SetColor(InsertAt(root, key, value), BLACK)
  }

  /** Iterative binary search from the root. */
  method Search<V>(root: Tree<V>, key: int) returns (r: Option<V>)
    ensures r.Some? ==> Entry(key, r.value) in Inorder(root)
    ensures Ordered(root) ==> r == (if key in AsMap(root) then Some(AsMap(root)[key]) else None)
  {
    var x := root;
    while x.Node?
      invariant forall e :: e in Inorder(x) ==> e in Inorder(root)
      invariant Ordered(root) ==> Ordered(x)
      invariant Ordered(root) ==> (key in AsMap(root) <==> key in AsMap(x))
      invariant Ordered(root) && key in AsMap(x) ==> AsMap(root)[key] == AsMap(x)[key]
      decreases x
    {
      if key == x.key {
        if Ordered(root) {
          LookupHere(x);
        }
        assert Inorder(x)[|Inorder(x.left)|] == Entry(key, x.value);
        return Some(x.value);
      } else if key < x.key {
        if Ordered(root) {
          LookupLeft(x, key);
        }
        x := x.left;
      } else {
        if Ordered(root) {
          LookupRight(x, key);
        }
        x := x.right;
      }
    }
    return None;
  }

  /** Recursive node count. */
  function Size<V>(t: Tree<V>): (n: nat)
    ensures n == |Inorder(t)|
  {
    match t
    case Nil => 0
    case Node(_, l, _, _, r) => 1 + Size(l) + Size(r)
  }

  /**
    Pushes a red link into the left subtree: flip, and if the right child's
    left child is red, borrow it by two rotations and flip back.
   */
  function MoveRedLeft<V>(h: Tree<V>): (r: Tree<V>)
    requires h.Node? && h.left.Node? && h.right.Node?
    ensures r.Node? && r.left.Node?
    ensures Inorder(r) == Inorder(h)
  {
    var h1 := FlipColors(h);
    if IsRed(h1.right.left) then
      var h2 := h1.(right := RotateRight(h1.right));
      FlipColors(RotateLeft(h2))
    else
      h1
  }

  /** Mirror of `MoveRedLeft`: pushes a red link into the right subtree. */
  function MoveRedRight<V>(h: Tree<V>): (r: Tree<V>)
    requires h.Node? && h.left.Node? && h.right.Node?
    ensures r.Node? && r.right.Node?
    ensures Inorder(r) == Inorder(h)
  {
    var h1 := FlipColors(h);
    if IsRed(h1.left.left) then FlipColors(RotateRight(h1)) else h1
  }

  /** A balanced left-leaning node has no right child when it has no left child. */
  lemma NoLeftNoRight<V>(h: Tree<V>)
    requires h.Node? && Balanced(h) && LeansLeft(h) && h.left.Nil?
    ensures h.right.Nil?
  {
    assert BlackHeight(h.right) == 0 && !IsRed(h.right);
  }

  /**
    When `deleteMin` calls `MoveRedLeft`, the right child exists and the
    subtree it then descends into is again a balanced left-leaning node.
   */
  lemma MoveRedLeftShape<V>(h: Tree<V>)
    requires h.Node? && Balanced(h) && LeansLeft(h)
    requires h.left.Node? && !IsRed(h.left) && !IsRed(h.left.left)
    ensures h.right.Node?
    ensures MoveRedLeft(h).left.Node?
    ensures Balanced(MoveRedLeft(h).left) && LeansLeft(MoveRedLeft(h).left)
  {
    assert BlackHeight(h.left) >= 1;
    assert h.right.Node?;
    assert !IsRed(h.right);
    var h1 := FlipColors(h);
    if IsRed(h1.right.left) {
      var x := h.right.left;
      assert IsRed(x);
      assert BlackHeight(x) == BlackHeight(x.left);
      assert BlackHeight(h.right) == BlackHeight(x) + 1;
      assert BlackHeight(h.left) == BlackHeight(h.left.left) + 1;
      assert Balanced(h.left) && Balanced(h.right) && Balanced(x);
      assert LeansLeft(h.left) && LeansLeft(h.right) && LeansLeft(x) && LeansLeft(x.left);
      var r := MoveRedLeft(h);
      var L := h.left.(color := RED);
      assert LeansLeft(L);
      assert LeansLeft(x.left);
      assert IsRed(x.left) ==> IsRed(L);
      assert r.left == Node(BLACK, L, h.key, h.value, x.left);
      assert LeansLeft(r.left);
      assert Balanced(r.left);
    } else {
      assert MoveRedLeft(h).left == h.left.(color := RED);
    }
  }

  /**
    The step `deleteMin` takes before descending: if the left child and
    its left child are both black, `MoveRedLeft` first.
   */
  function PrepareLeft<V>(h: Tree<V>): (r: Tree<V>)
    requires h.Node? && Balanced(h) && LeansLeft(h) && h.left.Node?
    ensures r.Node? && r.left.Node? && Balanced(r.left) && LeansLeft(r.left)
    ensures Size(r.left) < Size(h)
    ensures Inorder(r) == Inorder(h)
  {
    if !IsRed(h.left) && !IsRed(h.left.left) then
      MoveRedLeftShape(h);
      MoveRedLeft(h)
    else
      assert Balanced(h.left) && LeansLeft(h.left);
      h
  }

  /** Dropping the first entry of the left subtree drops the first entry of the node. */
  lemma DropFirstOnLeft<V>(h: Tree<V>, l: Tree<V>)
    requires h.Node? && h.left.Node? && Inorder(l) == Inorder(h.left)[1..]
    ensures Inorder(h.(left := l)) == Inorder(h)[1..]
  {
    assert Inorder(h) == Inorder(h.left) + [Entry(h.key, h.value)] + Inorder(h.right);
    assert |Inorder(h.left)| >= 1;
  }

  /** Removes the leftmost node of a balanced left-leaning subtree. */
  function DeleteMinAt<V>(h: Tree<V>): (r: Tree<V>)
    requires h.Node? && Balanced(h) && LeansLeft(h)
    ensures h.left.Nil? ==> r.Nil?
    ensures Inorder(r) == Inorder(h)[1..]
    decreases Size(h)
  {
    if h.left.Nil? then
      NoLeftNoRight(h);
      Nil
    else
      var h1 := PrepareLeft(h);
      var l := DeleteMinAt(h1.left);
      DropFirstOnLeft(h1, l);
      FixUp(h1.(left := l))
  }

  /** Removes the smallest entry of a tree holding at least two, then forces the root black. */
  function DeleteMin<V>(root: Tree<V>): (r: Tree<V>)
    requires RedBlackInvariant(root) && Size(root) >= 2
    ensures r.Node? && !IsRed(r)
    ensures Inorder(r) == Inorder(root)[1..]
  {
    SetColor(DeleteMinAt(root), BLACK)
  }
}

=== FILE: memorytest.dfy ===
/**
  The invariant checks of `memory_test.go`, written as the tests walk the
  tree (node visitor, root-to-leaf path visitor, depth bound), and their
  relation to the recursive invariants: the red-black invariant implies
  every check, so every tree built by inserts passes them.
 */
module MemoryTest {
  import opened RedBlack
  import opened Invariants
  import opened Memory
  import opened MemoryProperties
  import opened InsertBalance

  /**
    Pre-order visit of every node, the `Nil` sentinels included: the tree
    itself first, then one entry per node and one per missing child.
   */
  function VisitNodes<V>(t: Tree<V>): (ns: seq<Tree<V>>)
    ensures |ns| == 2 * Size(t) + 1 && ns[0] == t
  {
    match t
    case Nil => [t]
    case Node(_, l, _, _, r) => [t] + VisitNodes(l) + VisitNodes(r)
  }

  /** Each path of `ps` with `t` put in front. */
  function Prefix<V>(t: Tree<V>, ps: seq<seq<Tree<V>>>): (qs: seq<seq<Tree<V>>>)
    ensures |qs| == |ps|
    ensures forall i :: 0 <= i < |ps| ==> qs[i] == [t] + ps[i]
  {
    if ps == [] then [] else [[t] + ps[0]] + Prefix(t, ps[1..])
  }

  /**
    The paths the path visitor reports, in its order: every root-to-leaf
    path, left subtree first; the empty tree reports none.
   */
  function LeafPaths<V>(t: Tree<V>): (ps: seq<seq<Tree<V>>>)
    ensures |ps| == 0 <==> t.Nil?
    ensures |ps| <= Size(t)
  {
    match t
    case Nil => []
    case Node(_, l, _, _, r) =>
      if l.Nil? && r.Nil? then [[t]]
      else Prefix(t, LeafPaths(l)) + Prefix(t, LeafPaths(r))
  }

  /** A path that starts at `t`, follows child links, and ends at a node without children. */
  ghost predicate IsLeafPath<V>(t: Tree<V>, p: seq<Tree<V>>) {
    && |p| >= 1 && p[0] == t
    && (forall i :: 0 <= i < |p| ==> p[i].Node?)
    && (forall i :: 1 <= i < |p| ==> p[i] == p[i - 1].left || p[i] == p[i - 1].right)
    && p[|p| - 1].left.Nil? && p[|p| - 1].right.Nil?
  }

  lemma ExtendLeafPath<V>(t: Tree<V>, c: Tree<V>, p: seq<Tree<V>>)
    requires t.Node? && (c == t.left || c == t.right) && IsLeafPath(c, p)
    ensures IsLeafPath(t, [t] + p)
  {
    var q := [t] + p;
    forall i | 1 <= i < |q| ensures q[i] == q[i - 1].left || q[i] == q[i - 1].right {
      if i > 1 {
        assert q[i] == p[i - 1] && q[i - 1] == p[i - 2];
      }
    }
  }

  /** A reported path of a node is the node followed by a reported path of its left or right child. */
  lemma LeafPathOfNode<V>(t: Tree<V>, i: int)
    requires t.Node? && !(t.left.Nil? && t.right.Nil?) && 0 <= i < |LeafPaths(t)|
    ensures LeafPaths(t)[i] == [t] + LeafPaths(t)[i][1..]
    ensures
      || (i < |LeafPaths(t.left)| && LeafPaths(t)[i][1..] == LeafPaths(t.left)[i])
      || (i >= |LeafPaths(t.left)| && LeafPaths(t)[i][1..] == LeafPaths(t.right)[i - |LeafPaths(t.left)|])
  {
    var a := Prefix(t, LeafPaths(t.left));
    var b := Prefix(t, LeafPaths(t.right));
    assert LeafPaths(t) == a + b;
    if i < |a| {
      assert LeafPaths(t)[i] == [t] + LeafPaths(t.left)[i];
    } else {
      assert LeafPaths(t)[i] == [t] + LeafPaths(t.right)[i - |a|];
    }
  }

  /** The path visitor reports only root-to-leaf paths. */
  lemma {:induction false} LeafPathsAreRootToLeaf<V>(t: Tree<V>)
    ensures forall i :: 0 <= i < |LeafPaths(t)| ==> IsLeafPath(t, LeafPaths(t)[i])
  {
    match t
    case Nil =>
    case Node(_, l, _, _, r) =>
      LeafPathsAreRootToLeaf(l);
      LeafPathsAreRootToLeaf(r);
      forall i | 0 <= i < |LeafPaths(t)| ensures IsLeafPath(t, LeafPaths(t)[i]) {
        if l.Nil? && r.Nil? {
          assert LeafPaths(t)[i] == [t];
        } else {
          LeafPathOfNode(t, i);
          if i < |LeafPaths(l)| {
            ExtendLeafPath(t, l, LeafPaths(l)[i]);
          } else {
            ExtendLeafPath(t, r, LeafPaths(r)[i - |LeafPaths(l)|]);
          }
        }
      }
  }

  /** Number of non-red nodes on a path. */
  function BlackCount<V>(p: seq<Tree<V>>): (n: nat)
    ensures n <= |p|
  {
    if p == [] then 0 else (if IsRed(p[0]) then 0 else 1) + BlackCount(p[1..])
  }

  predicate CheckBlackRoot<V>(t: Tree<V>) {
    t.Nil? || !IsRed(t)
  }

  /**
    The path check's running comparison: `expected` is the count to match,
    0 standing for "not set yet", so the first path with a non-zero count
    sets it and every later path must match it.
   */
  predicate SameBlackCount<V>(paths: seq<seq<Tree<V>>>, expected: nat)
    decreases |paths|
  {
    if paths == [] then true
    else
      var count := BlackCount(paths[0]);
      if expected == 0 then SameBlackCount(paths[1..], count)
      else count == expected && SameBlackCount(paths[1..], expected)
  }

  /** Every reported root-to-leaf path passes through the same number of black nodes. */
  predicate CheckAllPathsSameNumberBlack<V>(t: Tree<V>) {
    SameBlackCount(LeafPaths(t), 0)
  }

  /** A visited node that is red has no red child. */
  predicate RedNodeOk<V>(n: Tree<V>) {
    IsRed(n) ==> !IsRed(n.left) && !IsRed(n.right)
  }

  predicate AllRedNodesOk<V>(ns: seq<Tree<V>>) {
    forall i :: 0 <= i < |ns| ==> RedNodeOk(ns[i])
  }

  predicate CheckChildrenOfRedAreBlack<V>(t: Tree<V>) {
    AllRedNodesOk(VisitNodes(t))
  }

  function Pow2(k: nat): nat {
    if k == 0 then 1 else 2 * Pow2(k - 1)
  }

  /** The least `k` with `n <= 2^k`: the integer form of the ceiling of the base-2 logarithm. */
  function CeilLog2(n: nat): (k: nat)
    requires n >= 1
    ensures n <= Pow2(k)
    ensures k >= 1 ==> Pow2(k - 1) < n
  {
    if n == 1 then 0 else 1 + CeilLog2((n + 1) / 2)
  }

  /** The bound the depth check allows: twice the ceiling logarithm, or 1 for a single node. */
  function MaxDepth(n: nat): (bound: nat)
    requires n >= 1
    ensures bound >= 1 && (n >= 2 ==> Pow2(bound / 2) >= n)
  {
    if n == 1 then 1 else 2 * CeilLog2(n)
  }

  /** Depth walker: `d` is the depth of `h`; only present children are visited. */
  function DepthFrom<V>(h: Tree<V>, d: int): (depth: int)
    requires h.Node?
    ensures depth >= d
  {
    var leftDepth := if h.left.Node? then DepthFrom(h.left, d + 1) else d;
    var rightDepth := if h.right.Node? then DepthFrom(h.right, d + 1) else d;
    if leftDepth > rightDepth then leftDepth else rightDepth
  }

  /** Height counted in nodes. */
  function Depth<V>(t: Tree<V>): nat {
    match t
    case Nil => 0
    case Node(_, l, _, _, r) => 1 + (if Depth(l) > Depth(r) then Depth(l) else Depth(r))
  }

  /** The depth walker started at depth 1 measures the height in nodes. */
  lemma {:induction false} DepthFromIsDepth<V>(h: Tree<V>, d: int)
    requires h.Node?
    ensures DepthFrom(h, d) == d - 1 + Depth(h)
  {
    if h.left.Node? {
      DepthFromIsDepth(h.left, d + 1);
    }
    if h.right.Node? {
      DepthFromIsDepth(h.right, d + 1);
    }
  }

  predicate CheckDepth<V>(t: Tree<V>) {
    Size(t) == 0 || DepthFrom(t, 1) <= MaxDepth(Size(t))
  }

  /** The checks the tests run after building a tree. */
  predicate CheckInvariants<V>(t: Tree<V>) {
    && CheckBlackRoot(t)
    && CheckAllPathsSameNumberBlack(t)
    && CheckChildrenOfRedAreBlack(t)
    && CheckDepth(t)
  }

  /** Counting the black nodes of a path from its head. */
  lemma BlackCountCons<V>(t: Tree<V>, q: seq<Tree<V>>)
    ensures BlackCount([t] + q) == (if IsRed(t) then 0 else 1) + BlackCount(q)
  {
    assert ([t] + q)[1..] == q;
  }

  /** On a balanced tree every root-to-leaf path counts as many black nodes as the black height. */
  lemma {:induction false} LeafPathsBlackCount<V>(t: Tree<V>)
    requires Balanced(t)
    ensures forall i :: 0 <= i < |LeafPaths(t)| ==> BlackCount(LeafPaths(t)[i]) == BlackHeight(t)
  {
    match t
    case Nil =>
    case Node(_, l, _, _, r) =>
      LeafPathsBlackCount(l);
      LeafPathsBlackCount(r);
      forall i | 0 <= i < |LeafPaths(t)| ensures BlackCount(LeafPaths(t)[i]) == BlackHeight(t) {
        if l.Nil? && r.Nil? {
          assert LeafPaths(t)[i] == [t] + [];
          BlackCountCons(t, []);
        } else {
          LeafPathOfNode(t, i);
          BlackCountCons(t, LeafPaths(t)[i][1..]);
        }
      }
  }

  /** Paths that all count `b` black nodes pass the running comparison, whether or not `b` is already expected. */
  lemma {:induction false} EqualCountsPass<V>(paths: seq<seq<Tree<V>>>, expected: nat, b: nat)
    requires forall i :: 0 <= i < |paths| ==> BlackCount(paths[i]) == b
    requires expected == 0 || expected == b
    ensures SameBlackCount(paths, expected)
    decreases |paths|
  {
    if paths != [] {
      assert BlackCount(paths[0]) == b;
      EqualCountsPass(paths[1..], if expected == 0 then b else expected, b);
    }
  }

  /** Once a non-zero count is expected, passing means every remaining path has that count. */
  lemma {:induction false} PassMeansEqualCounts<V>(paths: seq<seq<Tree<V>>>, expected: nat)
    requires expected >= 1 && SameBlackCount(paths, expected)
    ensures forall i :: 0 <= i < |paths| ==> BlackCount(paths[i]) == expected
    decreases |paths|
  {
    if paths != [] {
      PassMeansEqualCounts(paths[1..], expected);
      forall i | 1 <= i < |paths| ensures BlackCount(paths[i]) == expected {
        assert paths[i] == paths[1..][i - 1];
      }
    }
  }

  /** Black height measured to the `Nil` terminals implies the path check. */
  lemma BalancedPassesPathCheck<V>(t: Tree<V>)
    requires Balanced(t)
    ensures CheckAllPathsSameNumberBlack(t)
  {
    LeafPathsBlackCount(t);
    EqualCountsPass(LeafPaths(t), 0, BlackHeight(t));
  }

  /**
    Under a black root every reported path counts at least one black node,
    so the path check holds exactly when all reported paths count the same.
   */
  lemma PathCheckIsEqualCounts<V>(t: Tree<V>)
    requires CheckBlackRoot(t)
    ensures CheckAllPathsSameNumberBlack(t) <==>
      forall i, j :: 0 <= i < |LeafPaths(t)| && 0 <= j < |LeafPaths(t)| ==>
        BlackCount(LeafPaths(t)[i]) == BlackCount(LeafPaths(t)[j])
  {
    var ps := LeafPaths(t);
    if ps != [] {
      LeafPathsAreRootToLeaf(t);
      assert IsLeafPath(t, ps[0]);
      assert ps[0] == [t] + ps[0][1..];
      BlackCountCons(t, ps[0][1..]);
      var c := BlackCount(ps[0]);
      assert c >= 1;
      if CheckAllPathsSameNumberBlack(t) {
        PassMeansEqualCounts(ps[1..], c);
        forall i | 0 <= i < |ps| ensures BlackCount(ps[i]) == c {
          if i >= 1 {
            assert ps[i] == ps[1..][i - 1];
          }
        }
      }
      if forall i, j :: 0 <= i < |ps| && 0 <= j < |ps| ==> BlackCount(ps[i]) == BlackCount(ps[j]) {
        EqualCountsPass(ps, 0, c);
      }
    }
  }

  /**
    The path check is weaker than black balance: paths end at leaves, so a
    black node with one missing child and one black child passes it.
   */
  lemma PathCheckWeakerThanBalance()
    ensures CheckAllPathsSameNumberBlack(Node(BLACK, Nil, 1, 0, Node(BLACK, Nil, 2, 0, Nil)))
    ensures !Balanced(Node(BLACK, Nil, 1, 0, Node(BLACK, Nil, 2, 0, Nil)))
  {
    var leaf: Tree<int> := Node(BLACK, Nil, 2, 0, Nil);
    var t := Node(BLACK, Nil, 1, 0, leaf);
    assert LeafPaths(leaf) == [[leaf]];
    assert LeafPaths(t) == [[t, leaf]] by {
      assert LeafPaths<int>(Nil) == [];
      assert [t] + [leaf] == [t, leaf];
    }
  }

  /**
    A path counting no black node leaves the expected count unset, so under
    a red root the path check passes paths whose counts differ.
   */
  lemma PathCheckSkipsZeroCounts()
    ensures CheckAllPathsSameNumberBlack(Node(RED, Node(RED, Nil, 1, 0, Nil), 2, 0, Node(BLACK, Nil, 3, 0, Nil)))
    ensures
      var t := Node(RED, Node(RED, Nil, 1, 0, Nil), 2, 0, Node(BLACK, Nil, 3, 0, Nil));
      |LeafPaths(t)| == 2 && BlackCount(LeafPaths(t)[0]) != BlackCount(LeafPaths(t)[1])
  {
    var a: Tree<int> := Node(RED, Nil, 1, 0, Nil);
    var c: Tree<int> := Node(BLACK, Nil, 3, 0, Nil);
    var t := Node(RED, a, 2, 0, c);
    assert LeafPaths(a) == [[a]] && LeafPaths(c) == [[c]];
    assert LeafPaths(t) == [[t, a], [t, c]] by {
      assert [t] + [a] == [t, a] && [t] + [c] == [t, c];
    }
    assert BlackCount([t, a]) == 0 by {
      assert [t, a][1..] == [a];
      assert [a][1..] == [];
    }
    assert BlackCount([t, c]) == 1 by {
      assert [t, c][1..] == [c];
      assert [c][1..] == [];
    }
    assert [[t, a], [t, c]][1..] == [[t, c]];
  }

  lemma AllRedNodesOkAppend<V>(a: seq<Tree<V>>, b: seq<Tree<V>>)
    ensures AllRedNodesOk(a + b) <==> AllRedNodesOk(a) && AllRedNodesOk(b)
  {
    if AllRedNodesOk(a + b) {
      forall i | 0 <= i < |b| ensures RedNodeOk(b[i]) {
        assert (a + b)[|a| + i] == b[i];
      }
      forall i | 0 <= i < |a| ensures RedNodeOk(a[i]) {
        assert (a + b)[i] == a[i];
      }
    }
  }

  /** Visiting every node and checking red ones is the recursive no-red-red invariant. */
  lemma {:induction false} RedCheckIsRedChildrenBlack<V>(t: Tree<V>)
    ensures CheckChildrenOfRedAreBlack(t) <==> RedChildrenBlack(t)
  {
    match t
    case Nil =>
      assert VisitNodes(t) == [t];
    case Node(_, l, _, _, r) =>
      RedCheckIsRedChildrenBlack(l);
      RedCheckIsRedChildrenBlack(r);
      AllRedNodesOkAppend([t] + VisitNodes(l), VisitNodes(r));
      AllRedNodesOkAppend([t], VisitNodes(l));
      assert AllRedNodesOk([t]) <==> RedNodeOk(t) by {
        assert [t][0] == t;
      }
  }

  /** With no red-red link, height is at most twice the black height (plus one under a red root). */
  lemma {:induction false} DepthWithinBlackHeight<V>(t: Tree<V>)
    requires Balanced(t) && RedChildrenBlack(t)
    ensures Depth(t) <= 2 * BlackHeight(t) + (if IsRed(t) then 1 else 0)
  {
    match t
    case Nil =>
    case Node(_, l, _, _, r) =>
      DepthWithinBlackHeight(l);
      DepthWithinBlackHeight(r);
  }

  /** A balanced tree of black height `b` holds at least `2^b - 1` nodes. */
  lemma {:induction false} SizeWithinBlackHeight<V>(t: Tree<V>)
    requires Balanced(t)
    ensures Pow2(BlackHeight(t)) <= Size(t) + 1
  {
    match t
    case Nil =>
    case Node(c, l, _, _, r) =>
      SizeWithinBlackHeight(l);
      SizeWithinBlackHeight(r);
      var b := BlackHeight(l);
      assert BlackHeight(r) == b;
      assert Size(t) == 1 + Size(l) + Size(r);
      if c == BLACK {
        assert BlackHeight(t) == b + 1;
        assert Pow2(b + 1) == 2 * Pow2(b);
      } else {
        assert BlackHeight(t) == b;
      }
  }

  lemma {:induction false} Pow2Monotone(a: nat, b: nat)
    requires a <= b
    ensures Pow2(a) <= Pow2(b)
    decreases b
  {
    if a < b {
      Pow2Monotone(a, b - 1);
    }
  }

  /** A tree with the red-black invariant passes the depth check. */
  lemma DepthBound<V>(t: Tree<V>)
    requires RedBlackInvariant(t)
    ensures CheckDepth(t)
  {
    var n := Size(t);
    if n >= 1 {
      DepthFromIsDepth(t, 1);
      if n == 1 {
        assert Size(t.left) == 0 && Size(t.right) == 0;
        assert t.left.Nil? && t.right.Nil?;
      } else {
        var k := CeilLog2(n);
        var b := BlackHeight(t);
        DepthWithinBlackHeight(t);
        SizeWithinBlackHeight(t);
        if b > k {
          Pow2Monotone(k + 1, b);
          assert Pow2(k + 1) == 2 * Pow2(k);
        }
        assert b <= k;
      }
    }
  }

  /** The red-black invariant implies every check the tests run. */
  lemma InvariantPassesChecks<V>(t: Tree<V>)
    requires RedBlackInvariant(t)
    ensures CheckInvariants(t)
  {
    BalancedPassesPathCheck(t);
    RedCheckIsRedChildrenBlack(t);
    DepthBound(t);
  }

  /** The empty tree has no nodes and passes every check. */
  lemma EmptyTreePassesChecks<V>()
    ensures Size<V>(Nil) == 0 && CheckInvariants<V>(Nil)
  {
    InvariantPassesChecks<V>(Nil);
  }

  /** Inserts the entries in order, each with `Insert`. */
  function InsertAll<V>(t: Tree<V>, es: seq<Entry<V>>): Tree<V> {
    if es == [] then t
    else Insert(InsertAll(t, es[..|es| - 1]), es[|es| - 1].key, es[|es| - 1].value)
  }

  /**
    Any sequence of inserts into an ordered red-black tree keeps it an
    ordered red-black tree whose map is the old map overridden by the
    inserted entries, later ones winning.
   */
  lemma {:induction false} InsertAllContents<V>(t: Tree<V>, es: seq<Entry<V>>)
    requires RedBlackInvariant(t) && Ordered(t)
    ensures RedBlackInvariant(InsertAll(t, es)) && Ordered(InsertAll(t, es))
    ensures AsMap(InsertAll(t, es)) == AsMap(t) + EntriesToMap(es)
    decreases |es|
  {
    if es != [] {
      var es' := es[..|es| - 1];
      var e := es[|es| - 1];
      var before := InsertAll(t, es');
      assert InsertAll(t, es) == Insert(before, e.key, e.value);
      assert EntriesToMap(es) == EntriesToMap(es')[e.key := e.value];
      InsertAllContents(t, es');
      InsertKeepsInvariant(before, e.key, e.value);
      InsertContents(before, e.key, e.value);
      OverrideLast(AsMap(t), EntriesToMap(es'), e.key, e.value);
    }
  }

  /** Hence the tree passes every check after any sequence of inserts. */
  lemma InsertAllPassesChecks<V>(t: Tree<V>, es: seq<Entry<V>>)
    requires RedBlackInvariant(t) && Ordered(t)
    ensures CheckInvariants(InsertAll(t, es))
  {
    InsertAllContents(t, es);
    InvariantPassesChecks(InsertAll(t, es));
  }
}

=== FILE: properties.dfy ===
/**
  What the operations of `Memory` do to the contents of a tree: the
  primitives keep the in-order sequence, insertion updates the map,
  and deleting the minimum drops the first entry.
 */
module MemoryProperties {
  import opened RedBlack
  import opened Invariants
  import opened Memory

  /** Flipping twice restores every colour. */
  lemma FlipColorsTwice<V>(h: Tree<V>)
    requires h.Node? && h.left.Node? && h.right.Node?
    ensures FlipColors(FlipColors(h)) == h
  {
  }

  /** Rotating left over a red right link is undone by rotating right. */
  lemma RotateLeftThenRight<V>(h: Tree<V>)
    requires h.Node? && IsRed(h.right)
    ensures RotateRight(RotateLeft(h)) == h
  {
  }

  /** Rotating right over a red left link is undone by rotating left. */
  lemma RotateRightThenLeft<V>(h: Tree<V>)
    requires h.Node? && IsRed(h.left)
    ensures RotateLeft(RotateRight(h)) == h
  {
  }

  /** On an ordered tree every key is stored once, so the node count is the number of keys. */
  lemma {:induction false} SizeIsKeyCount<V>(t: Tree<V>)
    requires Ordered(t)
    ensures Size(t) == |Keys(t)|
  {
    match t
    case Nil =>
    case Node(_, l, k, _, r) =>
      SizeIsKeyCount(l);
      SizeIsKeyCount(r);
      assert Keys(l) * {k} == {};
      forall x | x in Keys(r) ensures x !in Keys(l) + {k} {
        assert k < x;
      }
      assert (Keys(l) + {k}) * Keys(r) == {};
  }

  lemma ReplaceLeft<V>(h: Tree<V>, l: Tree<V>, k: int, v: V)
    requires h.Node? && Ordered(h) && k < h.key && Ordered(l)
    requires Keys(l) == Keys(h.left) + {k} && AsMap(l) == AsMap(h.left)[k := v]
    ensures Ordered(h.(left := l))
    ensures Keys(h.(left := l)) == Keys(h) + {k}
    ensures AsMap(h.(left := l)) == AsMap(h)[k := v]
  {
    var n := h.(left := l);
    assert forall x :: x in Keys(l) ==> x < h.key;
    assert Ordered(n);
    AsMapKeys(h.right);
    assert k !in AsMap(h.right);
    assert AsMap(n) == AsMap(h.left)[k := v][h.key := h.value] + AsMap(h.right);
    UpdateUnderUnion(AsMap(h.left), AsMap(h.right), k, v, h.key, h.value);
  }

  lemma ReplaceRight<V>(h: Tree<V>, r: Tree<V>, k: int, v: V)
    requires h.Node? && Ordered(h) && h.key < k && Ordered(r)
    requires Keys(r) == Keys(h.right) + {k} && AsMap(r) == AsMap(h.right)[k := v]
    ensures Ordered(h.(right := r))
    ensures Keys(h.(right := r)) == Keys(h) + {k}
    ensures AsMap(h.(right := r)) == AsMap(h)[k := v]
  {
    var n := h.(right := r);
    assert forall x :: x in Keys(r) ==> h.key < x;
    assert Ordered(n);
    assert AsMap(n) == AsMap(h.left)[h.key := h.value] + AsMap(h.right)[k := v];
    OverrideLast(AsMap(h.left)[h.key := h.value], AsMap(h.right), k, v);
  }

  lemma ReplaceValue<V>(h: Tree<V>, v: V)
    requires h.Node? && Ordered(h)
    ensures Ordered(h.(value := v))
    ensures Keys(h.(value := v)) == Keys(h)
    ensures AsMap(h.(value := v)) == AsMap(h)[h.key := v]
  {
    AsMapKeys(h.right);
    assert h.key !in AsMap(h.right);
  }

  /**
    Inserting into an ordered subtree keeps it ordered, adds the key, and
    maps the key to the new value while every other key keeps its value.
   */
  lemma {:induction false} InsertAtContents<V>(h: Tree<V>, k: int, v: V)
    requires Ordered(h)
    ensures Ordered(InsertAt(h, k, v))
    ensures Keys(InsertAt(h, k, v)) == Keys(h) + {k}
    ensures AsMap(InsertAt(h, k, v)) == AsMap(h)[k := v]
    decreases Size(h)
  {
    if h.Node? {
      var h1 := SplitFourNode(h);
      SameInorder(h, h1);
      var h2 :=
        if k == h1.key then h1.(value := v)
        else if k < h1.key then h1.(left := InsertAt(h1.left, k, v))
        else h1.(right := InsertAt(h1.right, k, v));
      if k == h1.key {
        ReplaceValue(h1, v);
      } else if k < h1.key {
        InsertAtContents(h1.left, k, v);
        ReplaceLeft(h1, InsertAt(h1.left, k, v), k, v);
      } else {
        InsertAtContents(h1.right, k, v);
        ReplaceRight(h1, InsertAt(h1.right, k, v), k, v);
      }
      SameInorder(h2, FixUp(h2));
    }
  }

  /**
    `Insert` keeps an ordered tree ordered; afterwards the key maps to the
    new value, every other key to its old one, and the node count grows by
    one exactly when the key is new.
   */
  lemma InsertContents<V>(t: Tree<V>, k: int, v: V)
    requires Ordered(t)
    ensures Ordered(Insert(t, k, v))
    ensures Keys(Insert(t, k, v)) == Keys(t) + {k}
    ensures AsMap(Insert(t, k, v)) == AsMap(t)[k := v]
    ensures Size(Insert(t, k, v)) == if k in Keys(t) then Size(t) else Size(t) + 1
  {
    var r0 := InsertAt(t, k, v);
    var r := Insert(t, k, v);
    InsertAtContents(t, k, v);
    assert Inorder(r) == Inorder(r0);
    SameInorder(r0, r);
    SizeAfterAddingKey(t, r, k);
  }

  /** An ordered tree whose key set gained `k` grew by one node exactly when `k` was new. */
  lemma SizeAfterAddingKey<V>(t: Tree<V>, r: Tree<V>, k: int)
    requires Ordered(t) && Ordered(r) && Keys(r) == Keys(t) + {k}
    ensures Size(r) == if k in Keys(t) then Size(t) else Size(t) + 1
  {
    SizeIsKeyCount(t);
    SizeIsKeyCount(r);
    if k in Keys(t) {
      assert Keys(r) == Keys(t);
    } else {
      assert |Keys(t) + {k}| == |Keys(t)| + 1;
    }
  }

  /** The key reached by following left links from the root. */
  function LeftmostKey<V>(t: Tree<V>): int
    requires t.Node?
  {
    if t.left.Nil? then t.key else LeftmostKey(t.left)
  }

  /** The leftmost key heads the in-order sequence and, on an ordered tree, is the least key. */
  lemma {:induction false} LeftmostKeyIsLeast<V>(t: Tree<V>)
    requires t.Node?
    ensures Inorder(t)[0].key == LeftmostKey(t)
    ensures LeftmostKey(t) in Keys(t)
    ensures Ordered(t) ==> forall x :: x in Keys(t) ==> LeftmostKey(t) <= x
  {
    if t.left.Node? {
      LeftmostKeyIsLeast(t.left);
    }
  }

  /** Dropping the head of a sorted entry sequence drops its key from the key set and the map. */
  lemma DropFirst<V>(s: seq<Entry<V>>)
    requires |s| >= 1 && Sorted(s)
    ensures Sorted(s[1..])
    ensures KeySet(s[1..]) == KeySet(s) - {s[0].key}
    ensures EntriesToMap(s[1..]) == EntriesToMap(s) - {s[0].key}
  {
    var head, tail := [s[0]], s[1..];
    assert s == head + tail;
    assert s[0].key !in KeySet(tail) by {
      forall i | 0 <= i < |tail| ensures tail[i].key != s[0].key {
        assert tail[i] == s[i + 1];
      }
    }
    KeySetAppend(head, tail);
    assert head[0].key == s[0].key;
    assert KeySet(head) == {s[0].key};
    EntriesToMapAppend(head, tail);
    assert EntriesToMap(head) == map[s[0].key := s[0].value];
    EntriesToMapKeys(tail);
    MapUnionDropKey(EntriesToMap(head), EntriesToMap(tail), s[0].key);
  }

  lemma {:induction false} EntriesToMapKeys<V>(s: seq<Entry<V>>)
    ensures EntriesToMap(s).Keys == KeySet(s)
    decreases |s|
  {
    if s != [] {
      var s' := s[..|s| - 1];
      EntriesToMapKeys(s');
      assert s == s' + [s[|s| - 1]];
      KeySetAppend(s', [s[|s| - 1]]);
      assert [s[|s| - 1]][0].key == s[|s| - 1].key;
      assert KeySet([s[|s| - 1]]) == {s[|s| - 1].key};
    }
  }

  /**
    On an ordered red-black tree of at least two entries, `DeleteMin`
    keeps the tree ordered and removes exactly the least key and its value.
   */
  lemma DeleteMinContents<V>(t: Tree<V>)
    requires RedBlackInvariant(t) && Ordered(t) && Size(t) >= 2
    ensures Ordered(DeleteMin(t))
    ensures Keys(DeleteMin(t)) == Keys(t) - {LeftmostKey(t)}
    ensures AsMap(DeleteMin(t)) == AsMap(t) - {LeftmostKey(t)}
    ensures Size(DeleteMin(t)) == Size(t) - 1
  {
    var r := DeleteMin(t);
    var s := Inorder(t);
    assert Inorder(r) == s[1..];
    LeftmostKeyIsLeast(t);
    OrderedIffSorted(t);
    DropFirst(s);
    OrderedIffSorted(r);
    KeysOfInorder(t);
    KeysOfInorder(r);
    AsMapOfInorder(t);
    AsMapOfInorder(r);
  }

  /** The shape inserting five ascending keys builds, with keys `k1` to `k5`. */
  function FiveKeys<V>(k1: int, k2: int, k3: int, k4: int, k5: int, v: V): Tree<V> {
    Node(BLACK, Node(BLACK, Nil, k1, v, Nil), k2, v,
         Node(BLACK, Node(RED, Nil, k3, v, Nil), k4, v, Node(RED, Nil, k5, v, Nil)))
  }

  /** `FiveKeys` is a five-node tree with the red-black invariant. */
  lemma FiveKeysValid<V>(k1: int, k2: int, k3: int, k4: int, k5: int, v: V)
    ensures RedBlackInvariant(FiveKeys(k1, k2, k3, k4, k5, v)) && Size(FiveKeys(k1, k2, k3, k4, k5, v)) == 5
  {
    var t := FiveKeys(k1, k2, k3, k4, k5, v);
    assert BlackHeight(t.left) == BlackHeight(t.left.left) + 1;
    assert Valid(t.right.left) && Valid(t.right.right) && Valid(t.left);
    assert BlackHeight(t.right) == 1 && BlackHeight(t.left) == 1;
    assert Valid(t.right);
    assert Size(t.right) == 3;
  }

  /** Inserting five ascending keys into the empty tree builds `FiveKeys`. */
  lemma InsertFiveAscending<V>(k1: int, k2: int, k3: int, k4: int, k5: int, v: V)
    requires k1 < k2 < k3 < k4 < k5
    ensures Insert(Insert(Insert(Insert(Insert(Nil, k1, v), k2, v), k3, v), k4, v), k5, v)
         == FiveKeys(k1, k2, k3, k4, k5, v)
  {
    var t1 := Insert(Nil, k1, v);
    assert t1 == Node(BLACK, Nil, k1, v, Nil);
    var t2 := Insert(t1, k2, v);
    assert InsertAt(t1.right, k2, v) == Node(RED, Nil, k2, v, Nil);
    assert t2 == Node(BLACK, Node(RED, Nil, k1, v, Nil), k2, v, Nil);
    var t3 := Insert(t2, k3, v);
    assert InsertAt(t2.right, k3, v) == Node(RED, Nil, k3, v, Nil);
    assert t3 == Node(BLACK, Node(RED, Nil, k1, v, Nil), k2, v, Node(RED, Nil, k3, v, Nil));
    var t4 := Insert(t3, k4, v);
    var b3 := Node(BLACK, Nil, k3, v, Nil);
    assert InsertAt(b3.right, k4, v) == Node(RED, Nil, k4, v, Nil);
    assert InsertAt(b3, k4, v) == Node(BLACK, Node(RED, Nil, k3, v, Nil), k4, v, Nil);
    assert t4 == Node(BLACK, Node(BLACK, Nil, k1, v, Nil), k2, v, Node(BLACK, Node(RED, Nil, k3, v, Nil), k4, v, Nil));
    var t5 := Insert(t4, k5, v);
    assert InsertAt(t4.right.right, k5, v) == Node(RED, Nil, k5, v, Nil);
    assert InsertAt(t4.right, k5, v) == Node(BLACK, Node(RED, Nil, k3, v, Nil), k4, v, Node(RED, Nil, k5, v, Nil));
  }

  /**
    `DeleteMin` does not keep the left-leaning rule: on the shape that
    inserting five ascending keys builds, it leaves a node whose only red
    child is its right one. That link comes from `MoveRedLeft` at the root,
    which rotates the 4-node on the right into a right-leaning node; the
    descent and its fix-ups stay on the left and never reach it.
   */
  lemma DeleteMinCanBreakLeftLean<V>(k1: int, k2: int, k3: int, k4: int, k5: int, v: V)
    ensures RedBlackInvariant(FiveKeys(k1, k2, k3, k4, k5, v)) && Size(FiveKeys(k1, k2, k3, k4, k5, v)) == 5
    ensures DeleteMin(FiveKeys(k1, k2, k3, k4, k5, v)) ==
      Node(BLACK, Node(BLACK, Nil, k2, v, Nil), k3, v, Node(BLACK, Nil, k4, v, Node(RED, Nil, k5, v, Nil)))
    ensures !LeansLeft(DeleteMin(FiveKeys(k1, k2, k3, k4, k5, v)))
    ensures PrepareLeft(FiveKeys(k1, k2, k3, k4, k5, v)).right == Node(BLACK, Nil, k4, v, Node(RED, Nil, k5, v, Nil))
    ensures DeleteMin(FiveKeys(k1, k2, k3, k4, k5, v)).right == PrepareLeft(FiveKeys(k1, k2, k3, k4, k5, v)).right
  {
    var t := FiveKeys(k1, k2, k3, k4, k5, v);
    FiveKeysValid(k1, k2, k3, k4, k5, v);
    var h1 := FlipColors(t);
    var h2 := h1.(right := RotateRight(h1.right));
    assert h2 == Node(RED, Node(RED, Nil, k1, v, Nil), k2, v,
                      Node(RED, Nil, k3, v, Node(RED, Nil, k4, v, Node(RED, Nil, k5, v, Nil))));
    var moved := Node(BLACK, Node(BLACK, Node(RED, Nil, k1, v, Nil), k2, v, Nil), k3, v,
                      Node(BLACK, Nil, k4, v, Node(RED, Nil, k5, v, Nil)));
    assert RotateLeft(h2) == Node(RED, Node(RED, Node(RED, Nil, k1, v, Nil), k2, v, Nil), k3, v,
                                  Node(RED, Nil, k4, v, Node(RED, Nil, k5, v, Nil)));
    assert PrepareLeft(t) == moved;
    var below := moved.left;
    assert PrepareLeft(below) == below;
    assert DeleteMinAt(below.left) == Nil;
    var two := Node(BLACK, Nil, k2, v, Nil);
    assert FixUp(two) == two;
    assert DeleteMinAt(below) == two;
    var result := moved.(left := two);
    assert FixUp(result) == result;
    assert DeleteMinAt(t) == result;
    assert !LeansLeft(result.right);
  }
}

=== FILE: redblack.dfy ===
/**
  The node capability of a Left-Leaning Red-Black tree (Sedgewick 2008):
  colours, the immutable node datatype, the nil-safe red test, and the
  abstractions every operation is specified against (in-order sequence,
  key set, key/value map, binary-search-tree ordering).
 */
module RedBlack {

  /** A colour is a boolean, RED being true and BLACK false. */
  type Color = bool
  const RED: Color := true
  const BLACK: Color := false

  /** `Nil` is the "no node" sentinel; every `Node` owns its two children. */
  datatype Tree<V> = Nil | Node(color: Color, left: Tree<V>, key: int, value: V, right: Tree<V>)

  datatype Entry<V> = Entry(key: int, value: V)

  datatype Option<T> = None | Some(value: T)

  /** Nil-safe red test: the sentinel is never red. */
  function IsRed<V>(h: Tree<V>): (red: bool)
    ensures h.Nil? ==> !red
    ensures h.Node? ==> (red <==> h.color == RED)
  {
    h.Node? && h.color == RED
  }

  /** The tree with every colour forgotten: keys, values and links only. */
  function Skeleton<V>(t: Tree<V>): Tree<V> {
    match t
    case Nil => Nil
    case Node(_, l, k, v, r) => Node(BLACK, Skeleton(l), k, v, Skeleton(r))
  }

  function Inorder<V>(t: Tree<V>): seq<Entry<V>> {
    match t
    case Nil => []
    case Node(_, l, k, v, r) => Inorder(l) + [Entry(k, v)] + Inorder(r)
  }

  function Keys<V>(t: Tree<V>): set<int> {
    match t
    case Nil => {}
    case Node(_, l, k, _, r) => Keys(l) + {k} + Keys(r)
  }

  /** The map a tree stands for; on an ordered tree the three parts are disjoint. */
  function AsMap<V>(t: Tree<V>): map<int, V> {
    match t
    case Nil => map[]
    case Node(_, l, k, v, r) => AsMap(l)[k := v] + AsMap(r)
  }

  /** Binary-search-tree ordering: smaller keys left, larger keys right. */
  predicate Ordered<V>(t: Tree<V>) {
    match t
    case Nil => true
    case Node(_, l, k, _, r) =>
      && Ordered(l) && Ordered(r)
      && (forall x :: x in Keys(l) ==> x < k)
      && (forall x :: x in Keys(r) ==> k < x)
  }

  /** Keys strictly increasing along a sequence of entries. */
  predicate Sorted<V>(s: seq<Entry<V>>) {
    forall i, j :: 0 <= i < j < |s| ==> s[i].key < s[j].key
  }

  function KeySet<V>(s: seq<Entry<V>>): set<int> {
    set i | 0 <= i < |s| :: s[i].key
  }

  /** Entries applied left to right, a later key overriding an earlier one. */
  function EntriesToMap<V>(s: seq<Entry<V>>): map<int, V> {
    if s == [] then map[]
    else EntriesToMap(s[..|s| - 1])[s[|s| - 1].key := s[|s| - 1].value]
  }

  lemma KeySetAppend<V>(a: seq<Entry<V>>, b: seq<Entry<V>>)
    ensures KeySet(a + b) == KeySet(a) + KeySet(b)
  {
    forall x | x in KeySet(a + b) ensures x in KeySet(a) + KeySet(b) {
      var i :| 0 <= i < |a + b| && (a + b)[i].key == x;
      if i >= |a| {
        assert b[i - |a|].key == x;
      }
    }
    forall x | x in KeySet(a) + KeySet(b) ensures x in KeySet(a + b) {
      if x in KeySet(a) {
        var i :| 0 <= i < |a| && a[i].key == x;
        assert (a + b)[i].key == x;
      } else {
        var i :| 0 <= i < |b| && b[i].key == x;
        assert (a + b)[|a| + i].key == x;
      }
    }
  }

  /** The key set of a tree is the set of keys along its in-order sequence. */
  lemma {:induction false} KeysOfInorder<V>(t: Tree<V>)
    ensures Keys(t) == KeySet(Inorder(t))
  {
    match t
    case Nil =>
    case Node(_, l, k, v, r) =>
      KeysOfInorder(l);
      KeysOfInorder(r);
      KeySetAppend(Inorder(l), [Entry(k, v)]);
      KeySetAppend(Inorder(l) + [Entry(k, v)], Inorder(r));
      assert [Entry(k, v)][0].key == k;
      assert KeySet([Entry(k, v)]) == {k};
  }

  lemma {:induction false} EntriesToMapAppend<V>(a: seq<Entry<V>>, b: seq<Entry<V>>)
    ensures EntriesToMap(a + b) == EntriesToMap(a) + EntriesToMap(b)
    decreases |b|
  {
    if b == [] {
      assert a + b == a;
    } else {
      var b' := b[..|b| - 1];
      var e := b[|b| - 1];
      assert (a + b)[..|a + b| - 1] == a + b';
      EntriesToMapAppend(a, b');
    }
  }

  /** The map a tree stands for depends on its in-order sequence alone. */
  lemma {:induction false} AsMapOfInorder<V>(t: Tree<V>)
    ensures AsMap(t) == EntriesToMap(Inorder(t))
  {
    match t
    case Nil =>
    case Node(_, l, k, v, r) =>
      AsMapOfInorder(l);
      AsMapOfInorder(r);
      EntriesToMapAppend(Inorder(l) + [Entry(k, v)], Inorder(r));
      EntriesToMapAppend(Inorder(l), [Entry(k, v)]);
      assert EntriesToMap([Entry(k, v)]) == map[k := v];
  }

  /** The parts of a sorted `a + [e] + b` are sorted, with `a`'s keys below `e`'s and `b`'s above. */
  lemma SortedSplit<V>(a: seq<Entry<V>>, e: Entry<V>, b: seq<Entry<V>>)
    requires Sorted(a + [e] + b)
    ensures Sorted(a) && Sorted(b)
    ensures forall x :: x in KeySet(a) ==> x < e.key
    ensures forall x :: x in KeySet(b) ==> e.key < x
  {
    var s := a + [e] + b;
    forall i, j | 0 <= i < j < |a| ensures a[i].key < a[j].key {
      assert s[i] == a[i] && s[j] == a[j];
    }
    forall i, j | 0 <= i < j < |b| ensures b[i].key < b[j].key {
      assert s[|a| + 1 + i] == b[i] && s[|a| + 1 + j] == b[j];
    }
    forall x | x in KeySet(a) ensures x < e.key {
      var i :| 0 <= i < |a| && a[i].key == x;
      assert s[i] == a[i] && s[|a|] == e;
    }
    forall x | x in KeySet(b) ensures e.key < x {
      var i :| 0 <= i < |b| && b[i].key == x;
      assert s[|a| + 1 + i] == b[i] && s[|a|] == e;
    }
  }

  /** Sorted parts around a separating entry join into a sorted sequence. */
  lemma SortedJoin<V>(a: seq<Entry<V>>, e: Entry<V>, b: seq<Entry<V>>)
    requires Sorted(a) && Sorted(b)
    requires forall x :: x in KeySet(a) ==> x < e.key
    requires forall x :: x in KeySet(b) ==> e.key < x
    ensures Sorted(a + [e] + b)
  {
    var s := a + [e] + b;
    forall i, j | 0 <= i < j < |s| ensures s[i].key < s[j].key {
      if j < |a| {
        assert s[i] == a[i] && s[j] == a[j];
      } else if j == |a| {
        assert a[i].key in KeySet(a);
      } else if i < |a| {
        assert a[i].key in KeySet(a);
        assert b[j - |a| - 1].key in KeySet(b);
      } else if i == |a| {
        assert b[j - |a| - 1].key in KeySet(b);
      } else {
        assert s[i] == b[i - |a| - 1] && s[j] == b[j - |a| - 1];
      }
    }
  }

  lemma SortedAppend<V>(a: seq<Entry<V>>, e: Entry<V>, b: seq<Entry<V>>)
    ensures Sorted(a + [e] + b) <==>
      && Sorted(a) && Sorted(b)
      && (forall x :: x in KeySet(a) ==> x < e.key)
      && (forall x :: x in KeySet(b) ==> e.key < x)
  {
    if Sorted(a + [e] + b) {
      SortedSplit(a, e, b);
    }
    if && Sorted(a) && Sorted(b)
       && (forall x :: x in KeySet(a) ==> x < e.key)
       && (forall x :: x in KeySet(b) ==> e.key < x)
    {
      SortedJoin(a, e, b);
    }
  }

  /** BST ordering is exactly a strictly increasing in-order key sequence. */
  lemma {:induction false} OrderedIffSorted<V>(t: Tree<V>)
    ensures Ordered(t) <==> Sorted(Inorder(t))
  {
    match t
    case Nil =>
    case Node(_, l, k, v, r) =>
      OrderedIffSorted(l);
      OrderedIffSorted(r);
      KeysOfInorder(l);
      KeysOfInorder(r);
      SortedAppend(Inorder(l), Entry(k, v), Inorder(r));
  }

  /** Everything the model says about a tree's contents is fixed by its in-order sequence. */
  lemma SameInorder<V>(a: Tree<V>, b: Tree<V>)
    requires Inorder(a) == Inorder(b)
    ensures Keys(a) == Keys(b)
    ensures AsMap(a) == AsMap(b)
    ensures Ordered(a) <==> Ordered(b)
  {
    KeysOfInorder(a);
    KeysOfInorder(b);
    AsMapOfInorder(a);
    AsMapOfInorder(b);
    OrderedIffSorted(a);
    OrderedIffSorted(b);
  }

  /** On any tree the map's domain is the key set. */
  lemma {:induction false} AsMapKeys<V>(t: Tree<V>)
    ensures AsMap(t).Keys == Keys(t)
  {
    match t
    case Nil =>
    case Node(_, l, k, v, r) =>
      AsMapKeys(l);
      AsMapKeys(r);
  }

  /** Updating the right operand of a union is updating the union. */
  lemma OverrideLast<V>(a: map<int, V>, b: map<int, V>, k: int, v: V)
    ensures (a + b)[k := v] == a + b[k := v]
  {
  }

  /** An update of the left operand of a union commutes past a later update of another key it does not hide. */
  lemma UpdateUnderUnion<V>(a: map<int, V>, b: map<int, V>, k: int, v: V, k2: int, v2: V)
    requires k != k2 && k !in b
    ensures a[k := v][k2 := v2] + b == (a[k2 := v2] + b)[k := v]
  {
  }

  /** A union whose left operand holds only `k`, which the right one lacks, minus `k` is the right operand. */
  lemma MapUnionDropKey<V>(a: map<int, V>, b: map<int, V>, k: int)
    requires a.Keys == {k} && k !in b
    ensures (a + b) - {k} == b
  {
  }

  /** On an ordered tree, a key smaller than the root's is looked up in the left subtree only. */
  lemma LookupLeft<V>(t: Tree<V>, k: int)
    requires t.Node? && Ordered(t) && k < t.key
    ensures k in AsMap(t) <==> k in AsMap(t.left)
    ensures k in AsMap(t) ==> AsMap(t)[k] == AsMap(t.left)[k]
  {
    AsMapKeys(t.right);
  }

  /** On an ordered tree, a key larger than the root's is looked up in the right subtree only. */
  lemma LookupRight<V>(t: Tree<V>, k: int)
    requires t.Node? && Ordered(t) && t.key < k
    ensures k in AsMap(t) <==> k in AsMap(t.right)
    ensures k in AsMap(t) ==> AsMap(t)[k] == AsMap(t.right)[k]
  {
    AsMapKeys(t.left);
  }

  /** On an ordered tree, the root's own key maps to the root's value. */
  lemma LookupHere<V>(t: Tree<V>)
    requires t.Node? && Ordered(t)
    ensures t.key in AsMap(t) && AsMap(t)[t.key] == t.value
  {
    AsMapKeys(t.right);
  }
}

=== FILE: scenarios.dfy ===
/**
  The insert-then-search scenarios of `memory_test.go`, replayed on the
  model: each builds a tree from the empty one with `Insert`, checks the
  invariants, and looks keys up with `Search`.
 */
module MemoryScenarios {
  import opened RedBlack
  import opened Invariants
  import opened Memory
  import opened MemoryProperties
  import opened InsertBalance
  import opened MemoryTest

  /**
    The tests' `tree.Insert(k, v)` on a tree handle: replaces the root by
    `Insert`'s result, which stays an ordered red-black tree, with the key
    mapped to the value and all else unchanged.
   */
  method InsertInto<V>(t: Tree<V>, k: int, v: V) returns (r: Tree<V>)
    requires RedBlackInvariant(t) && Ordered(t)
    ensures RedBlackInvariant(r) && Ordered(r)
    ensures AsMap(r) == AsMap(t)[k := v]
    ensures Keys(r) == Keys(t) + {k}
  {
    InsertKeepsInvariant(t, k, v);
    InsertContents(t, k, v);
    r := Insert(t, k, v);
  }

  /**
    Searching after an insert finds the inserted value under its key and,
    under any other key, whatever the tree held before.
   */
  method SearchAfterInsert<V>(t: Tree<V>, k: int, v: V, other: int) returns (found: Option<V>, elsewhere: Option<V>)
    requires RedBlackInvariant(t) && Ordered(t) && other != k
    ensures found == Some(v)
    ensures elsewhere == (if other in AsMap(t) then Some(AsMap(t)[other]) else None)
  {
    var r := InsertInto(t, k, v);
    found := Search(r, k);
    elsewhere := Search(r, other);
  }

  /** Inserting 1 and searching for it finds its value. */
  method SingleKeyTree() returns (t: Tree<string>, one: Option<string>)
    ensures CheckInvariants(t) && Size(t) == 1
    ensures one == Some("one")
  {
    t := Nil;
    t := InsertInto(t, 1, "one");
    one := Search(t, 1);
    InvariantPassesChecks(t);
    SizeIsKeyCount(t);
  }

  /** Inserting 1 and 2 and searching for both finds their values. */
  method DoubleKeyTree() returns (t: Tree<string>, one: Option<string>, two: Option<string>)
    ensures CheckInvariants(t) && Size(t) == 2
    ensures one == Some("one") && two == Some("two")
  {
    t := Nil;
    t := InsertInto(t, 1, "one");
    t := InsertInto(t, 2, "two");
    one := Search(t, 1);
    two := Search(t, 2);
    InvariantPassesChecks(t);
    SizeIsKeyCount(t);
    assert Keys(t) == KeyRange(1, 3);
  }

  /** Inserting 1 to 6 in ascending order, then searching for 1 and 5. */
  method MultipleKeyTree() returns (t: Tree<string>, one: Option<string>, five: Option<string>)
    ensures CheckInvariants(t) && Size(t) == 6
    ensures one == Some("one") && five == Some("five")
  {
    t := Nil;
    t := InsertInto(t, 1, "one");
    assert Keys(t) == KeyRange(1, 2);
    t := InsertInto(t, 2, "two");
    assert Keys(t) == KeyRange(1, 3);
    t := InsertInto(t, 3, "three");
    assert Keys(t) == KeyRange(1, 4);
    t := InsertInto(t, 4, "four");
    assert Keys(t) == KeyRange(1, 5);
    t := InsertInto(t, 5, "five");
    assert Keys(t) == KeyRange(1, 6);
    t := InsertInto(t, 6, "six");
    assert Keys(t) == KeyRange(1, 7);
    assert AsMap(t)[1] == "one" && AsMap(t)[5] == "five";
    one := Search(t, 1);
    five := Search(t, 5);
    InvariantPassesChecks(t);
    SizeIsKeyCount(t);
  }

  /** The keys `lo .. hi-1`. */
  function KeyRange(lo: int, hi: int): (s: set<int>)
    ensures forall j :: j in s <==> lo <= j < hi
    ensures |s| == if hi <= lo then 0 else hi - lo
    decreases hi - lo
  {
    if hi <= lo then {} else KeyRange(lo, hi - 1) + {hi - 1}
  }

  /** The keys `0 .. n-1`, each mapped to the value `name` gives it. */
  function NameUpTo<V>(name: int -> V, n: nat): (m: map<int, V>)
    ensures m.Keys == KeyRange(0, n)
    ensures forall j :: j in m ==> m[j] == name(j)
  {
    if n == 0 then map[] else NameUpTo(name, n - 1)[n - 1 := name(n - 1)]
  }

  /**
    A valid tree holding n distinct keys has n nodes, passes the checks,
    and is at most `MaxDepth(n)` deep.
   */
  lemma KeyCountPassesChecks<V>(t: Tree<V>, n: nat)
    requires RedBlackInvariant(t) && Ordered(t) && |Keys(t)| == n
    ensures CheckInvariants(t) && Size(t) == n
    ensures n >= 1 ==> t.Node? && DepthFrom(t, 1) <= MaxDepth(n)
  {
    InvariantPassesChecks(t);
    SizeIsKeyCount(t);
  }

  lemma CeilLog2Of75()
    ensures CeilLog2(75) == 7
  {
    assert CeilLog2(2) == 1;
    assert CeilLog2(3) == 2;
    assert CeilLog2(5) == 3;
    assert CeilLog2(10) == 4;
    assert CeilLog2(19) == 5;
    assert CeilLog2(38) == 6;
  }

  /**
    Inserting 0 to 74 in ascending order, each key with the value `name`
    gives it: the invariants hold after every insert, and at the end the
    tree holds 75 nodes, no deeper than 14, each key mapped to its value.
   */
  method LotsOfKeys<V>(name: int -> V) returns (t: Tree<V>)
    ensures CheckInvariants(t) && Size(t) == 75 && t.Node?
    ensures DepthFrom(t, 1) <= 14
    ensures AsMap(t) == NameUpTo(name, 75)
  {
    t := Nil;
    var i := 0;
    while i < 75
      invariant 0 <= i <= 75
      invariant RedBlackInvariant(t) && Ordered(t)
      invariant AsMap(t) == NameUpTo(name, i)
    {
      t := InsertInto(t, i, name(i));
      i := i + 1;
    }
    AsMapKeys(t);
    KeyCountPassesChecks(t, 75);
    CeilLog2Of75();
  }
}
